=== FILE: README.md ===
# Server health checker — Dafny model

This project models the metric pipeline of a small server-monitoring bot. The
bot runs a fixed catalog of twelve shell commands on a server, either over SSH
or in a local shell. It parses each command's text output into typed metrics
and classifies each metric against thresholds. It then folds the metrics into
issues, recommendations and one overall status. Modelled parts:

- `Outcomes` — `Option`, and `Outcome`, which returns a value or raises a
  Python exception (`ValueError`, `IndexError`, `ZeroDivisionError`).
  `collect` lets a few exceptions escape, and this type models them.
- `PyText`, `PyNumbers` — the Python built-ins the parsers rely on:
  `strip`, `split()`, `split(None, n)`, `split(sep)`, `rstrip(c)`, `upper`,
  `replace`, `in`, `join`, `int()`, `float()`, `round(x, n)`, and `int()`
  of a float.
- `Transport` — the `SSHResult` record, and how `execute` turns a command's
  outcome into a result (exit status, timeout, SSH error, other exception).
  `execute_multiple` is a loop over an abstract runner.
- `Metrics` — statuses, metrics, process samples, the threshold table and
  the fixed session, Docker and journal thresholds, and `_get_status`.
- `LineLoops` — the loop shape shared by the line parsers. Each line yields
  at most one item, in line order. The disk parser's loop can also raise.
- `Parsers` — `_parse_memory`, `_parse_disk`, `_parse_processes`,
  `_parse_size_to_gb`, `_parse_docker` and `_parse_journal`.
- `Analysis` — the health report, and `_analyze_issues`: issues,
  recommendations and the overall status.
- `Collector` — the command catalog, and `collect` on a result map. This
  covers the defaults, the per-command overrides, and the inline OS, load,
  core-count and session parsing. `CheckServer` runs the catalog through
  `ExecuteMultiple` and then collects.
- `StableSort`, `Formatter` — the pure display helpers: status emoji, the
  progress bar, the capped CPU percentage, the summary's status order and
  totals, the list caps, and the short report's choice of disk.

Behaviours of the code that a reader of its docstrings might not expect,
and what the model does:

- `collect` can raise. Its steps catch only some exceptions, and the model
  reproduces each escaping one as `Raised`:
  - `_parse_memory` and `_parse_disk` call `int()` outside any `try`
    (core/health_checker.py:121-122 and :154-155), so a non-numeric total or
    used count on a `Mem:`, `Swap:` or disk line raises ValueError;
  - the load average is divided by the core count inside a `try` that
    catches only ValueError and IndexError (core/health_checker.py:394), so
    a core count of `0` raises ZeroDivisionError;
  - the journal step calls `float()` on the matched run of digits and
    points outside any `try` (core/health_checker.py:243), so a match such
    as `.` raises ValueError;
  - the Docker step takes `reclaim_str.split()[0]` outside any `try`
    (core/health_checker.py:216), so a third tab field that is whitespace
    only raises IndexError.
- The report's `errors` list (core/health_checker.py:64) is never appended
  to by `collect`, so it stays empty (`CollectAnalyzed`).
- `_parse_disk` keeps every line with at least five fields
  (core/health_checker.py:147-168); it does not check that the mount point
  starts with `/`. Only the command's `grep` filters such lines.
- The comment at core/health_checker.py:86 says sessions warn above 10 and
  are critical above 50, and the one at :90 says the same of Docker with 5
  and 15 GB. The code compares with `>=` (:430-433 and :220-223), and so
  does the model. The comment at :93 says the journal warns above 500 MB and
  is critical above 1 GB; the code is critical from 1000 MB (`>=` against
  `JOURNAL_CRITICAL_MB = 1000`, not 1024) and warns from 500 MB (:254-256),
  and so does the model.

## Model

| member | source | states |
|---|---|---|
| Metrics.StatusNameInjective | core/health_checker.py:19 | the four statuses have four distinct spellings |
| Metrics.Classify | core/health_checker.py:106-110 | critical exactly at or above the critical bound, warning exactly from the warning bound up to below the critical one, ok exactly below both |
| Metrics.GetStatus | core/health_checker.py:103-110 | never error; a kind in the table uses its pair; any other kind uses 70/90 |
| Metrics.ClassifyMonotone | core/health_checker.py:106-110 | a larger value never gets a less severe status |
| Metrics.DefaultTable | config.py:52-59 | the default table has exactly the kinds cpu, ram, disk and swap with bounds 70/90, 70/85, 70/85 and 30/50; for each kind a value is critical exactly at or above its critical bound and warning exactly from its warning bound to below the critical one; any other kind is classified like cpu |
| Transport.ResultOf | core/ssh_manager.py:64-94 | success exactly when the exit status is 0; a normal exit keeps stdout and stderr ("" when missing) and has no error; every caught exception gives failure, exit code -1, empty output and a non-empty error |
| Transport.MissingExitStatus | core/ssh_manager.py:68 | a missing exit status counts as failure but is recorded as exit code 0 |
| Transport.RunAll | core/ssh_manager.py:104-105 | one result per command, whether or not earlier commands failed |
| Transport.RunAllPrefix | core/ssh_manager.py:104-105 | commands run in list order: the results for a prefix of the list do not depend on the later commands |
| Transport.RunAllAt | core/ssh_manager.py:104-105 | the i-th result is what the i-th command gives in the world the commands before it left, whatever the later commands are |
| Transport.ExecuteMultiple | core/ssh_manager.py:101-106 | the map has a key for exactly the listed commands; each key maps to the result of its last occurrence in the run |
| LineLoops.KeepSomeAppend | core/health_checker.py:173-186 | the line loop keeps items in line order: two blocks of lines give the first block's items, then the second's |
| LineLoops.KeepSomeItems | core/health_checker.py:173-186 | every kept item is what some input line yields |
| LineLoops.KeepSomeCount | core/health_checker.py:173-186 | the line loop keeps exactly one item per line that yields one |
| LineLoops.KeepSomeKeeps | core/health_checker.py:173-186 | every item some line yields is kept |
| LineLoops.KeepSomeOrRaiseReturned | core/health_checker.py:150-155 | the disk loop returns exactly when no line raises |
| LineLoops.KeepSomeOrRaiseFirstError | core/health_checker.py:150-155 | when it raises, the error is the one from the first raising line |
| LineLoops.KeepSomeOrRaiseError | core/health_checker.py:150-155 | when every raising line raises the same exception, the loop raises only that exception |
| LineLoops.KeepSomeOrRaiseAppend | core/health_checker.py:150-168 | two blocks of lines raise when either block raises; otherwise the metrics are those of the first block, then the second |
| LineLoops.SumOrRaiseReturned | core/health_checker.py:210-218 | the Docker summing loop returns exactly when every line returns |
| LineLoops.SumOrRaiseAppend | core/health_checker.py:210-218 | two blocks of lines raise when either block raises; otherwise the sums are the blocks' sums added component-wise |
| PyNumbers.ParseInt | core/health_checker.py:384 | `int()` succeeds exactly on an optionally signed run of digits, ignoring surrounding whitespace |
| PyNumbers.RoundToSteps | core/health_checker.py:127 | `round(x, n)` is the nearest multiple of 10^-n, with ties going to the even multiple |
| PyText.SplitMaxAgrees | core/health_checker.py:174 | `split(None, 10)` agrees with `split()` on the first ten fields, equals it when `split()` gives at most ten fields, and has exactly eleven parts otherwise, the last one the rest of the line with its trailing whitespace kept |
| Parsers.IntOrRaise | core/health_checker.py:121-122 | an unhandled `int()` either returns the parsed value or raises ValueError |
| Parsers.UsageMetric | core/health_checker.py:123-131 | a positive total gives a metric with the given name, unit "%", value used/total×100 rounded to one place, the status of the unrounded percentage under the metric's kind (never error), and both counts in GB as details |
| Parsers.MemoryRaises | core/health_checker.py:117-135 | the memory parser returns exactly when every `Mem:`/`Swap:` line with three fields has integer counts, even when the total is 0 |
| Parsers.MemoryLoopError | core/health_checker.py:117-135 | the memory loop can raise only ValueError |
| Parsers.MemoryRaisesValueError | core/health_checker.py:112-145 | `_parse_memory` raises nothing but ValueError |
| Parsers.MemoryLastWins | core/health_checker.py:112-145 | RAM and swap come from the last line of each kind with a positive total; if there is none, the starting metric is kept |
| Parsers.MemoryDefaults | core/health_checker.py:114-115 | with no usable `Mem:` line, RAM is the "failed to parse" error metric; with no usable `Swap:` line, swap is ok with "no swap"; RAM is error exactly when there is no usable `Mem:` line |
| Parsers.MemLineParsed | core/health_checker.py:117-131 | a printed `Mem: total used` line with a positive total parses back to the RAM metric of those counts, with swap left at "no swap" |
| Parsers.MemoryExample | core/health_checker.py:117-131 | `Mem: 1000 500` gives a RAM value of 50.0 with status ok under the default table |
| Parsers.DiskLine | core/health_checker.py:151-167 | a line with at least five fields raises ValueError exactly when its total or used count is not an integer; it yields a metric exactly when both counts are integers and the fifth field with `%` stripped is a float; the metric is named "Disk " plus the mount point, has unit "%", that float as value, the "disk" status of it, and the used and total counts in GB as details |
| Parsers.DiskLines | core/health_checker.py:147-168 | returns exactly when no line raises; then one metric per accepted line: the count is the number of accepted lines, every accepted line's metric is kept, every metric comes from some line, and each is a percentage classified under "disk" |
| Parsers.DiskRaises | core/health_checker.py:150-155 | the disk parser raises exactly when some line with five fields has a non-integer total or used count, and the exception is ValueError |
| Parsers.DiskShortLineSkipped | core/health_checker.py:152 | a line with fewer than five fields adds nothing |
| Parsers.DiskLineOfFields | core/health_checker.py:152-165 | a well-formed `df` line yields exactly the metric built from its fields |
| Parsers.DiskLineAccepted | core/health_checker.py:152-165 | a line whose fields are a mount, two integer counts, anything and a numeric percentage yields the metric built from those fields |
| Parsers.Prefix | core/health_checker.py:182 | `s[:n]` is the first min(n, len(s)) characters of `s` |
| Parsers.ProcessLine | core/health_checker.py:174-185 | a line yields a process exactly when `split(None, 10)` gives eleven parts with an integer second part and numeric third and fourth parts; then user, pid, cpu and mem are those parts and the command is the eleventh part cut to its first min(50, len) characters |
| Parsers.ProcessLineFields | core/health_checker.py:177-181 | user, pid, cpu and mem come from the first four whitespace fields |
| Parsers.ProcessLineAccepted | core/health_checker.py:174-185 | a line with at least eleven fields, an integer second field and numeric third and fourth fields yields a process |
| Parsers.ProcessLines | core/health_checker.py:170-186 | one process per accepted line: the count is the number of accepted lines, every accepted line's process is in the list, every listed process comes from some line, and each command is at most 50 characters |
| Parsers.ProcessShortLineSkipped | core/health_checker.py:174-175 | a line with fewer than eleven fields is skipped |
| Parsers.UnitOf | core/health_checker.py:192-200 | GB is chosen exactly when the text contains GB; MB exactly when it contains MB but not GB; KB, B and no unit likewise in that precedence; the divisors are 1, 1024, 1024² and 1024³, and 1 for no unit |
| Parsers.SizeGb | core/health_checker.py:192-193 | "xGB" gives x |
| Parsers.SizeMb | core/health_checker.py:194-195 | "xMB" gives x/1024 |
| Parsers.SizeKb | core/health_checker.py:196-197 | "xKB" gives x/1024² |
| Parsers.SizeBytes | core/health_checker.py:198-199 | "xB" gives x/1024³ |
| Parsers.SizeTerabytesIgnored | core/health_checker.py:198-203 | "xTB" gives 0, because only the `B` is removed and "xT" is not a number |
| Parsers.SizeBareNumber | core/health_checker.py:200-201 | a bare number gives itself |
| Parsers.FloatRejectsTrailingLetter | core/health_checker.py:202-203 | text ending in a letter is not a float; this is the case where a size falls back to 0 |
| Parsers.DockerLine | core/health_checker.py:211-218 | a line raises exactly when its third tab field is non-empty but all whitespace, and then IndexError; otherwise it yields sizes exactly when it has at least two tab fields: the size in GB of the second field and of the first word of the third ("0" when missing) |
| Parsers.DockerStep | core/health_checker.py:211-218 | one line's contribution to the sums: it raises exactly when the line does, adds nothing for a line with fewer than two tab fields, and otherwise adds the line's sizes |
| Parsers.DockerSumsOne | core/health_checker.py:210-218 | summing a single line raises exactly when that line does, and otherwise gives its sizes |
| Parsers.DockerSumsAppend | core/health_checker.py:210-218 | the Docker sums of two blocks of lines add up component-wise, and the loop raises when either block does |
| Parsers.DockerRaises | core/health_checker.py:216 | the Docker parser raises exactly when some line has a third tab field that is non-empty but all whitespace |
| Parsers.ParseDocker | core/health_checker.py:205-233 | returns exactly when no line raises; the metric is "Docker" in GB with value the sum of the line sizes rounded to one place, the reclaimable sum as details, and the status of the unrounded sum: critical at 15 GB or more, warning from 5 GB, else ok |
| Parsers.SizeMatch | core/health_checker.py:241 | `([\d.]+)([KMGT]?)` finds nothing exactly when the text has no digit or point; otherwise it captures the leftmost maximal run of digits and points, and the K, M, G or T right after it if there is one |
| Parsers.SizeMatchOf | core/health_checker.py:241 | a numeral followed by G, M, K, T or nothing matches as that numeral and unit |
| Parsers.JournalUnits | core/health_checker.py:243-252 | G is multiplied by 1024, M is kept, K is divided by 1024, and T or no unit is divided by 1024² |
| Parsers.JournalNoMatch | core/health_checker.py:237-242 | output with no digit or point gives 0 MB |
| Parsers.ParseJournal | core/health_checker.py:235-267 | returns exactly when the matched number is a float; the metric is "Journal" in MB with value the size rounded to a whole number and the size as details; critical at 1000 MB or more, warning from 500 MB, else ok |
| Analysis.IssueOf | core/health_checker.py:272-276 | a metric raises an issue exactly when it is critical or warning, and the issue carries its status, subject and metric |
| Analysis.IssuesCount | core/health_checker.py:269-319 | exactly one issue per critical or warning metric, at that metric's level |
| Analysis.RecommendationsOfCriticalIssues | core/health_checker.py:269-319 | the recommendations are the subjects of the critical issues, in order, one per critical metric |
| Analysis.IssuesAppend | core/health_checker.py:269-319 | issues follow inspection order: a split list gives the first part's issues, then the second's |
| Analysis.RecommendationsAppend | core/health_checker.py:269-319 | recommendations follow inspection order in the same way |
| Analysis.QuietMetricsAddNothing | core/health_checker.py:269-319 | ok and error metrics add no issue and no recommendation |
| Analysis.Overall | core/health_checker.py:329-336 | critical exactly when some status is critical; ok exactly when every status is ok |
| Analysis.OverallIsWorst | core/health_checker.py:329-336 | the precedence chain picks the status of highest rank in critical > warning > error > ok, and it is one of the inputs |
| Analysis.OverallOfSameStatuses | core/health_checker.py:322-336 | the overall status depends only on which statuses occur, not on their order |
| Analysis.Analyze | core/health_checker.py:269-336 | appends the issues and recommendations of the inspected metrics, sets the overall status, and changes nothing else |
| Analysis.InspectedStatuses | core/health_checker.py:322-327 | the statuses of the overall check are those of the inspected metrics, in a different order |
| Analysis.AnalyzeOverallIsWorstInspected | core/health_checker.py:321-336 | the overall status is the worst status among the metrics the issues come from |
| Analysis.AnalyzeFresh | core/health_checker.py:269-336 | analysing a report with no issues, recommendations or errors leaves exactly its metrics' issues and recommendations, recommendations matching the critical issues, and the worst status |
| Collector.CommandList | core/health_checker.py:71-84 | the command list is the catalog's texts, in declared order |
| Collector.CatalogDistinct | core/health_checker.py:71-84 | the catalog lists no command twice |
| Collector.CommandTextInjective | core/health_checker.py:71-84 | different catalog entries have different command texts |
| Collector.CommandTextsDistinct | core/health_checker.py:343 | the command list has no duplicates, so no result is overwritten in the map |
| Collector.Output | core/health_checker.py:360-361 | a command's output is used exactly when its result is present and successful |
| Collector.OsParts | core/health_checker.py:372-377 | one part per line containing `=`: the count is the number of such lines, every such line's part is kept, and every part comes from some line |
| Collector.OsPart | core/health_checker.py:374-375 | a line gives a part exactly when it contains `=`, and the part is its second `=`-field with `"` stripped from both ends |
| Collector.OsPartOfQuoted | core/health_checker.py:374-375 | a `KEY="value"` line gives `value` |
| Collector.OsPartsAppend | core/health_checker.py:372-375 | OS parts follow line order: two blocks of lines give the first block's parts, then the second's |
| Collector.LoadMetric | core/health_checker.py:386-404 | raises ZeroDivisionError exactly when the first load field is a number and the core count is 0; gives a metric exactly when, in addition, there are three fields and the core count is non-zero; the metric is "CPU Load" with value the load rounded to two places and unit "/ N cores", classified under "cpu" on load/cores×100, with load/cores rounded to two places as the per-core load |
| Collector.SessionMetric | core/health_checker.py:429-442 | the metric is "Sessions" with the count as value, unit "users" and the count as details; critical at 50 or more, warning from 10, else ok |
| Collector.CollectFields | core/health_checker.py:359-414 | in a collected report, hostname, uptime and OS info are the stripped or joined output of their own command or "unknown"; RAM and swap are `_parse_memory` of the memory output or the defaults; disks are `_parse_disk` of the disk output or empty; errors is empty |
| Collector.CollectServiceFields | core/health_checker.py:416-454 | the process lists are `_parse_processes` of their own command's output or empty; sessions are the session metric of an integer output, else the default; Docker is absent without output or with NO_DOCKER, else `_parse_docker` of it; the journal is absent without output, else `_parse_journal` of it |
| Collector.CollectFirstError | core/health_checker.py:386-454 | the raising steps run in the order load, memory, disk, Docker, journal, and `collect` raises the exception of the first one that raises |
| Collector.MemoryErrorFirst | core/health_checker.py:406-449 | a memory output that raises makes `collect` raise ValueError, whatever the Docker output would raise |
| Collector.RaisesOnlyThroughParsers | core/health_checker.py:388-454 | an exception can escape only when the load, memory, disk, Docker or journal output was used |
| Collector.AssembleAllFailed | core/health_checker.py:346-357 | when no command succeeds, assembly gives the default report |
| Collector.AllFailed | core/health_checker.py:346-357 | when no command succeeds, every field keeps its default, and the overall status is error with no issues |
| Collector.DefaultAnalyzed | core/health_checker.py:346-357 | analysis leaves the default report unchanged: it raises no issue and its overall status is already error |
| Collector.NoResults | core/health_checker.py:343-357 | an empty result map gives an error report rather than an exception |
| Collector.CollectAnalyzed | core/health_checker.py:456-459 | the report's issues, recommendations and overall status are those of its own metrics, and `errors` is empty |
| Collector.CpuClassified | core/health_checker.py:388-402 | with three load fields and a numeric first field, the core count is non-zero and CPU is classified on load/cores×100 under "cpu" |
| Collector.CollectCpu | core/health_checker.py:386-404 | the collected CPU metric and per-core load are the load step's, or the defaults when the load step gives none |
| Collector.CpuShortLine | core/health_checker.py:400-404 | a load line with fewer than three fields keeps the CPU defaults |
| Collector.ZeroCores | core/health_checker.py:394 | a core count of 0 with a numeric load raises ZeroDivisionError |
| Collector.NoDocker | core/health_checker.py:448 | output containing NO_DOCKER leaves Docker absent |
| Collector.CheckServer | core/health_checker.py:343 | every catalog command gets exactly its own result, and the report is `collect` of that map |
| StableSort.SortPermutes | core/report_formatter.py:208 | sorting keeps every element, with its multiplicity |
| StableSort.SortOrdered | core/report_formatter.py:208 | the sorted list is ordered by key |
| StableSort.SortStable | core/report_formatter.py:208 | for every key, the elements with that key keep their input order |
| Formatter.StatusEmoji | core/report_formatter.py:8-15 | ok, warning and critical have their own circles; every other status, error included, gets the white circle |
| Formatter.EmojiDistinct | core/report_formatter.py:8-15 | the four statuses map to four different emoji |
| Formatter.Repeat | core/report_formatter.py:22 | `c * n` is n copies of c, and empty for n ≤ 0 |
| Formatter.ProgressBarShape | core/report_formatter.py:18-22 | for a value from 0 to 100 the bar is exactly `width` cells, with filled in [0, width] full cells first |
| Formatter.FilledMonotone | core/report_formatter.py:20 | a larger value never fills fewer cells |
| Formatter.ProgressBarOverflow | core/report_formatter.py:18-22 | above 100 the bar is all full cells, at least `width` of them |
| Formatter.CpuPercent | core/report_formatter.py:93 | `min(per_core × 100, 100)`: at most 100 and at most per-core load×100, and equal to one of them |
| Formatter.CpuBarFits | core/report_formatter.py:93-94 | the CPU bar of a non-negative load is exactly `width` cells |
| Formatter.SortReportsSpec | core/report_formatter.py:207-208 | the summary keeps every report, puts critical before warning before error before ok, and keeps input order within a status |
| Formatter.CountOverall | core/report_formatter.py:222-224 | the count for a status is its multiplicity among the reports' overall statuses |
| Formatter.OverallStatuses | core/report_formatter.py:222-224 | one overall status per report, in report order |
| Formatter.TotalsCoverReports | core/report_formatter.py:222-224 | the critical, warning and ok totals plus the error reports make up all reports, so the totals sum to at most the number of reports |
| Formatter.Take | core/report_formatter.py:139 | `xs[:n]` is a prefix of length min(n, len(xs)) |
| Formatter.FullReportCaps | core/report_formatter.py:134-154 | the full report shows the first min(5, n) issues, the first min(3, n) recommendations and the first min(3, n) errors, in order |
| Formatter.ProcessRows | core/report_formatter.py:167-174 | exactly min(5, n) rows; row k shows process k's percentage and user, and the first min(30, len) characters of its command |
| Formatter.WorstDisk | core/report_formatter.py:55-57 | the short report's disk has the largest value, and every disk before it has a smaller value, so ties go to the first |

## Left out

- Timestamps (`datetime.utcnow()`) are not modelled, and the report record has no timestamp field.
- The bodies of the two `execute` methods (asyncssh connections, subprocess spawning, `asyncio.timeout`) are not modelled. The runner is a parameter that returns an exit outcome or a caught exception. It threads a world value so that answers can depend on earlier commands.
- Exceptions other than the ones `execute` catches are not modelled. By the source's own contract, the runner never throws.
- Float formatting is not modelled. Detail strings (`{x:.1f}GB`, `Systemd logs: …`) and issue texts are abstract values that carry the numbers they would print. Recommendation texts are kept verbatim.
- Floats are exact reals. Binary rounding of `used / total * 100` and similar expressions is not modelled. `round(x, n)` is round-half-even on the exact value.
- PyNumbers.ParseFloat: accepts only optionally signed ASCII decimal literals. It does not accept exponents, `inf`/`nan`, underscores or non-ASCII digits, which Python's `float()` also accepts.
- PyNumbers.ParseInt: accepts ASCII digits only. Python's `int()` also accepts underscores between digits and non-ASCII decimal digits.
- PyText.Upper: upper-cases ASCII letters only.
- Parsers.SizeMatch: the digit class is ASCII `0`-`9` only. Python's `\d` in a `str` pattern also matches every other Unicode decimal digit.
- The Docker and journal sizes are exact reals, so the order in which Python adds and rounds the floats is not modelled.
- The HTML layout of the formatter functions (line texts, flags, status texts, the summary's disk and session columns) is not modelled. Only the caps, sort, counts, bar and emoji are.
- The Telegram bot, database, scheduler, startup code and pydantic settings loading are outside the pipeline and are not part of this model. Only the default threshold constants of the settings are modelled.
- Exit code -1 is not reserved for caught exceptions: a process that exits with status -1 gives the same `exit_code`. The model keeps this as the source has it.

=== FILE: analysis.dfy ===
/** The health report and `_analyze_issues`: the issue and recommendation
    lists, and the overall status with its precedence
    critical > warning > error > ok. */
module Analysis {
  import opened Outcomes
  import opened Metrics

  /** What an issue or recommendation is about. */
  datatype Subject = CpuLoad | Ram | Swap | Disk(name: string) | Sessions | Docker | Journal

  /** An entry of the issues list: its level (critical or warning), its
      subject, and the metric whose value (and, for Docker warnings, details)
      its text quotes. The Russian wording and float formatting of the text
      are not modelled. */
  datatype Issue = Issue(level: Status, subject: Subject, metric: Metric)

  /** A complete report. The timestamp is left out. */
  datatype HealthReport = HealthReport(
    serverName: string,
    hostname: string,
    uptime: string,
    osInfo: string,
    overall: Status,
    cpuLoad: Metric,
    cpuLoadPerCore: real,
    ram: Metric,
    swap: Metric,
    disks: seq<Metric>,
    sessions: Metric,
    docker: Option<Metric>,
    journal: Option<Metric>,
    topCpu: seq<ProcessInfo>,
    topMem: seq<ProcessInfo>,
    issues: seq<Issue>,
    recommendations: seq<Subject>,
    errors: seq<string>)

  /** The text of a recommendation. */
  function RecommendationText(subject: Subject): string {
    match subject
    case CpuLoad => "Найти и оптимизировать тяжёлые процессы"
    case Ram => "Проверить утечки памяти, увеличить swap или RAM"
    case Swap => "Срочно освободить RAM или увеличить память"
    case Disk(name) => "Очистить " + name + ": логи, кэш, старые файлы"
    case Sessions => "Проверить подозрительные подключения, возможна атака"
    case Docker => "Очистить Docker: docker system prune -a"
    case Journal => "Очистить журналы: journalctl --vacuum-size=200M"
  }

  /** The disks with their subjects, in list order. */
  function DiskEntries(disks: seq<Metric>): (entries: seq<(Subject, Metric)>)
    ensures |entries| == |disks|
    ensures forall k | 0 <= k < |disks| :: entries[k] == (Disk(disks[k].name), disks[k])
  {
    if |disks| == 0 then []
    else [(Disk(disks[0].name), disks[0])] + DiskEntries(disks[1..])
  }

  function Optional(subject: Subject, m: Option<Metric>): seq<(Subject, Metric)> {
    if m.Some? then [(subject, m.value)] else []
  }

  /** The metrics `_analyze_issues` inspects, in the order it inspects them:
      CPU, RAM, swap, each disk, sessions, Docker and journal when present. */
  function Inspected(r: HealthReport): seq<(Subject, Metric)> {
    [(CpuLoad, r.cpuLoad), (Ram, r.ram), (Swap, r.swap)] + DiskEntries(r.disks)
    + [(Sessions, r.sessions)] + Optional(Docker, r.docker) + Optional(Journal, r.journal)
  }

  /** The issue one metric raises: critical and warning metrics raise one;
      ok and error metrics raise none. */
  function IssueOf(entry: (Subject, Metric)): (i: Option<Issue>)
    ensures i.Some? <==> entry.1.status in {Critical, Warning}
    ensures i.Some? ==> i.value == Issue(entry.1.status, entry.0, entry.1)
  {
    var (subject, m) := entry;
    if m.status == Critical then Some(Issue(Critical, subject, m))
    else if m.status == Warning then Some(Issue(Warning, subject, m))
    else None
  }

  /** The issues of the inspected metrics, in inspection order. */
  function Issues(entries: seq<(Subject, Metric)>): seq<Issue> {
    if |entries| == 0 then []
    else (match IssueOf(entries[0]) case Some(i) => [i] case None => []) + Issues(entries[1..])
  }

  /** The recommendations: one per critical metric, in inspection order. */
  function Recommendations(entries: seq<(Subject, Metric)>): seq<Subject> {
    if |entries| == 0 then []
    else (if entries[0].1.status == Critical then [entries[0].0] else []) + Recommendations(entries[1..])
  }

  /** The number of entries whose status is in `levels`. */
  function CountStatus(entries: seq<(Subject, Metric)>, levels: set<Status>): nat {
    if |entries| == 0 then 0
    else (if entries[0].1.status in levels then 1 else 0) + CountStatus(entries[1..], levels)
  }

  /** The subjects of the critical issues, in order. */
  function CriticalSubjects(issues: seq<Issue>): seq<Subject> {
    if |issues| == 0 then []
    else (if issues[0].level == Critical then [issues[0].subject] else []) + CriticalSubjects(issues[1..])
  }

  /** Exactly one issue per warning or critical metric, each carrying that
      metric's status as its level, and nothing for ok or error metrics. */
  lemma {:induction false} IssuesCount(entries: seq<(Subject, Metric)>)
    ensures |Issues(entries)| == CountStatus(entries, {Critical, Warning})
    ensures forall k | 0 <= k < |Issues(entries)| ::
              Issues(entries)[k].level in {Critical, Warning}
              && Issues(entries)[k].level == Issues(entries)[k].metric.status
    decreases |entries|
  {
    if |entries| > 0 {
      IssuesCount(entries[1..]);
    }
  }

  /** The recommendations are exactly the subjects of the critical issues, in
      the same order: one per critical metric. */
  lemma {:induction false} RecommendationsOfCriticalIssues(entries: seq<(Subject, Metric)>)
    ensures Recommendations(entries) == CriticalSubjects(Issues(entries))
    ensures |Recommendations(entries)| == CountStatus(entries, {Critical})
    decreases |entries|
  {
    if |entries| > 0 {
      RecommendationsOfCriticalIssues(entries[1..]);
      var head := match IssueOf(entries[0]) case Some(i) => [i] case None => [];
      CriticalSubjectsAppend(head, Issues(entries[1..]));
    }
  }

  lemma {:induction false} CriticalSubjectsAppend(a: seq<Issue>, b: seq<Issue>)
    ensures CriticalSubjects(a + b) == CriticalSubjects(a) + CriticalSubjects(b)
    decreases |a|
  {
    if |a| == 0 {
      assert a + b == b;
    } else {
      assert (a + b)[0] == a[0];
      assert (a + b)[1..] == a[1..] + b;
      CriticalSubjectsAppend(a[1..], b);
      var head := if a[0].level == Critical then [a[0].subject] else [];
      assert CriticalSubjects(a + b) == head + CriticalSubjects(a[1..] + b);
      assert CriticalSubjects(a) == head + CriticalSubjects(a[1..]);
      assert head + (CriticalSubjects(a[1..]) + CriticalSubjects(b))
          == (head + CriticalSubjects(a[1..])) + CriticalSubjects(b);
    }
  }

  /** The fold visits metrics one after another: the issues of two runs of
      metrics are those of the first run followed by those of the second. */
  lemma {:induction false} IssuesAppend(a: seq<(Subject, Metric)>, b: seq<(Subject, Metric)>)
    ensures Issues(a + b) == Issues(a) + Issues(b)
    decreases |a|
  {
    if |a| == 0 {
      assert a + b == b;
    } else {
      assert (a + b)[0] == a[0];
      assert (a + b)[1..] == a[1..] + b;
      IssuesAppend(a[1..], b);
      var head := match IssueOf(a[0]) case Some(i) => [i] case None => [];
      assert Issues(a + b) == head + Issues(a[1..] + b);
      assert Issues(a) == head + Issues(a[1..]);
      assert head + (Issues(a[1..]) + Issues(b)) == (head + Issues(a[1..])) + Issues(b);
    }
  }

  /** Likewise for the recommendations. */
  lemma {:induction false} RecommendationsAppend(a: seq<(Subject, Metric)>, b: seq<(Subject, Metric)>)
    ensures Recommendations(a + b) == Recommendations(a) + Recommendations(b)
    decreases |a|
  {
    if |a| == 0 {
      assert a + b == b;
    } else {
      assert (a + b)[0] == a[0];
      assert (a + b)[1..] == a[1..] + b;
      RecommendationsAppend(a[1..], b);
      var head := if a[0].1.status == Critical then [a[0].0] else [];
      assert Recommendations(a + b) == head + Recommendations(a[1..] + b);
      assert Recommendations(a) == head + Recommendations(a[1..]);
      assert head + (Recommendations(a[1..]) + Recommendations(b))
          == (head + Recommendations(a[1..])) + Recommendations(b);
    }
  }

  /** Metrics whose status is ok or error contribute nothing. */
  lemma {:induction false} QuietMetricsAddNothing(entries: seq<(Subject, Metric)>)
    requires forall k | 0 <= k < |entries| :: entries[k].1.status in {Ok, Error}
    ensures Issues(entries) == [] && Recommendations(entries) == []
    decreases |entries|
  {
    if |entries| > 0 {
      QuietMetricsAddNothing(entries[1..]);
    }
  }

  // ---------------------------------------------------------------------------
  // Overall status

  /** The overall status of a list of statuses: critical if any is, else
      warning if any is, else error if any is, else ok. */
  function Overall(statuses: seq<Status>): (s: Status)
    ensures s == Critical <==> Critical in statuses
    ensures s == Ok <==> forall k | 0 <= k < |statuses| :: statuses[k] == Ok
  {
    if Critical in statuses then Critical
    else if Warning in statuses then Warning
    else if Error in statuses then Error
    else
      assert forall k | 0 <= k < |statuses| ::
        statuses[k] != Critical && statuses[k] != Warning && statuses[k] != Error;
      Ok
  }

  /** The precedence of the overall status. Unlike `Severity`, error ranks
      above ok. */
  function Rank(s: Status): nat {
    match s
    case Ok => 0
    case Error => 1
    case Warning => 2
    case Critical => 3
  }

  /** The more urgent of two statuses. */
  function Worse(a: Status, b: Status): (w: Status)
    ensures w == a || w == b
    ensures Rank(w) >= Rank(a) && Rank(w) >= Rank(b)
  {
    if Rank(a) >= Rank(b) then a else b
  }

  /** The reference definition: combine the statuses pairwise, starting from ok. */
  function WorstOf(statuses: seq<Status>): Status {
    if |statuses| == 0 then Ok else Worse(statuses[0], WorstOf(statuses[1..]))
  }

  /** The precedence chain equals the pairwise fold: the overall status has
      the highest rank of the list, and is one of its elements (ok for an
      empty list). */
  lemma {:induction false} OverallIsWorst(statuses: seq<Status>)
    ensures Overall(statuses) == WorstOf(statuses)
    ensures forall k | 0 <= k < |statuses| :: Rank(statuses[k]) <= Rank(Overall(statuses))
    ensures |statuses| > 0 ==> Overall(statuses) in statuses
    decreases |statuses|
  {
    if |statuses| > 0 {
      var rest := statuses[1..];
      OverallIsWorst(rest);
      assert forall x :: x in statuses <==> x == statuses[0] || x in rest;
      forall k | 0 <= k < |statuses|
        ensures Rank(statuses[k]) <= Rank(Overall(statuses))
      {
        if k > 0 {
          assert statuses[k] == rest[k - 1];
        }
      }
    }
  }

  /** The overall status depends only on which statuses occur, not on their
      order or repetition. */
  lemma OverallOfSameStatuses(a: seq<Status>, b: seq<Status>)
    requires forall x :: x in a <==> x in b
    ensures Overall(a) == Overall(b)
  {
  }

  /** The statuses of the entries, in order. */
  function Statuses(entries: seq<(Subject, Metric)>): (r: seq<Status>)
    ensures |r| == |entries|
  {
    seq(|entries|, k requires 0 <= k < |entries| => entries[k].1.status)
  }

  lemma StatusesAppend(a: seq<(Subject, Metric)>, b: seq<(Subject, Metric)>)
    ensures Statuses(a + b) == Statuses(a) + Statuses(b)
  {
  }

  /** The status list `_analyze_issues` builds: CPU, RAM, swap, sessions,
      Docker and journal when present, then the disks. */
  function StatusList(r: HealthReport): seq<Status> {
    [r.cpuLoad.status, r.ram.status, r.swap.status, r.sessions.status]
    + (if r.docker.Some? then [r.docker.value.status] else [])
    + (if r.journal.Some? then [r.journal.value.status] else [])
    + Statuses(DiskEntries(r.disks))
  }

  /** `_analyze_issues`: append the issues and recommendations and set the
      overall status. */
  function Analyze(r: HealthReport): (a: HealthReport)
    ensures a.issues == r.issues + Issues(Inspected(r))
    ensures a.recommendations == r.recommendations + Recommendations(Inspected(r))
    ensures a.overall == Overall(StatusList(r))
    ensures a.(issues := r.issues, recommendations := r.recommendations, overall := r.overall) == r
  {
    r.(issues := r.issues + Issues(Inspected(r)),
       recommendations := r.recommendations + Recommendations(Inspected(r)),
       overall := Overall(StatusList(r)))
  }

  /** Although the status list is in a different order from the inspection
      order, it holds the same statuses, so the overall status is the worst
      status among the inspected metrics. */
  lemma InspectedStatuses(r: HealthReport)
    ensures Statuses(Inspected(r))
         == [r.cpuLoad.status, r.ram.status, r.swap.status] + Statuses(DiskEntries(r.disks))
            + [r.sessions.status] + Statuses(Optional(Docker, r.docker)) + Statuses(Optional(Journal, r.journal))
  {
    var fixed := [(CpuLoad, r.cpuLoad), (Ram, r.ram), (Swap, r.swap)];
    var disks := DiskEntries(r.disks);
    var sessions := [(Sessions, r.sessions)];
    var docker := Optional(Docker, r.docker);
    var journal := Optional(Journal, r.journal);
    StatusesAppend(fixed, disks);
    StatusesAppend(fixed + disks, sessions);
    StatusesAppend(fixed + disks + sessions, docker);
    StatusesAppend(fixed + disks + sessions + docker, journal);
  }

  lemma AnalyzeOverallIsWorstInspected(r: HealthReport)
    ensures Analyze(r).overall == WorstOf(Statuses(Inspected(r)))
  {
    InspectedStatuses(r);
    var inspected := Statuses(Inspected(r));
    var listed := StatusList(r);
    assert Statuses(Optional(Docker, r.docker)) == (if r.docker.Some? then [r.docker.value.status] else []);
    assert Statuses(Optional(Journal, r.journal)) == (if r.journal.Some? then [r.journal.value.status] else []);
    assert forall x :: x in inspected <==> x in listed;
    OverallOfSameStatuses(listed, inspected);
    OverallIsWorst(inspected);
  }

  /** Analysing a report that has no issues, recommendations or errors yet
      leaves it with exactly the issues and recommendations of its metrics,
      the recommendations being the subjects of the critical issues, and the
      worst status among its metrics. */
  lemma AnalyzeFresh(r: HealthReport)
    requires r.issues == [] && r.recommendations == [] && r.errors == []
    ensures var a := Analyze(r);
            && a.issues == Issues(Inspected(a))
            && a.recommendations == Recommendations(Inspected(a))
            && a.recommendations == CriticalSubjects(a.issues)
            && a.overall == WorstOf(Statuses(Inspected(a)))
            && a.errors == []
  {
    var a := Analyze(r);
    assert Inspected(a) == Inspected(r);
    assert [] + Issues(Inspected(r)) == Issues(Inspected(r));
    assert [] + Recommendations(Inspected(r)) == Recommendations(Inspected(r));
    RecommendationsOfCriticalIssues(Inspected(r));
    AnalyzeOverallIsWorstInspected(r);
  }
}

=== FILE: collector.dfy ===
/** `collect`: the command catalog, the result map it is answered with, and
    the assembly of the report, where every field keeps its default unless
    its command's result is present and successful. */
module Collector {
  import opened Outcomes
  import opened PyText
  import opened PyNumbers
  import opened Transport
  import opened Metrics
  import opened Parsers
  import opened LineLoops
  import opened Analysis

  /** The entries of the command catalog. */
  datatype Command =
    | HostnameCmd | UptimeCmd | OsInfoCmd | CpuCoresCmd | LoadAvgCmd | MemoryCmd
    | DiskCmd | TopCpuCmd | TopMemCmd | SessionsCmd | DockerCmd | JournalCmd

  /** The shell text of each command. The longer texts are written as the
      concatenation of their parts. */
  function CommandText(c: Command): string {
    match c
    case HostnameCmd => "hostname"
    case UptimeCmd => "uptime -p 2>/dev/null || uptime"
    case OsInfoCmd => "cat /etc/os-release" + " | grep -E '^(NAME|VERSION)='" + " | head -2"
    case CpuCoresCmd => "nproc"
    case LoadAvgCmd => "cat /proc/loadavg"
    case MemoryCmd => "free -b | grep -E '^(Mem|Swap):'"
    case DiskCmd => "df -B1" + " --output=target,size,used,avail,pcent" + " | grep -E '^/'"
    case TopCpuCmd => "ps aux --sort=-%cpu | head -6 | tail -5"
    case TopMemCmd => "ps aux --sort=-%mem | head -6 | tail -5"
    case SessionsCmd => "who | wc -l"
    case DockerCmd =>
      "docker system df" + " --format '{{.Type}}\t{{.Size}}\t{{.Reclaimable}}'" + " 2>/dev/null || echo 'NO_DOCKER'"
    case JournalCmd => "journalctl --disk-usage 2>/dev/null" + " | grep -oP '[\\d.]+[KMGT]?'" + " || echo '0'"
  }

  /** The catalog in its declared order. */
  const Catalog: seq<Command> := [
    HostnameCmd, UptimeCmd, OsInfoCmd, CpuCoresCmd, LoadAvgCmd, MemoryCmd,
    DiskCmd, TopCpuCmd, TopMemCmd, SessionsCmd, DockerCmd, JournalCmd
  ]

  /** The command texts handed to `execute_multiple`. */
  function CommandList(): (texts: seq<string>)
    ensures |texts| == |Catalog|
    ensures forall k | 0 <= k < |Catalog| :: texts[k] == CommandText(Catalog[k])
  {
    seq(|Catalog|, k requires 0 <= k < |Catalog| => CommandText(Catalog[k]))
  }

  /** The position of each command in the catalog. */
  function Position(c: Command): (k: nat)
    ensures k < |Catalog| && Catalog[k] == c
  {
    match c
    case HostnameCmd => 0
    case UptimeCmd => 1
    case OsInfoCmd => 2
    case CpuCoresCmd => 3
    case LoadAvgCmd => 4
    case MemoryCmd => 5
    case DiskCmd => 6
    case TopCpuCmd => 7
    case TopMemCmd => 8
    case SessionsCmd => 9
    case DockerCmd => 10
    case JournalCmd => 11
  }

  lemma PositionOf(k: nat)
    requires k < |Catalog|
    ensures Position(Catalog[k]) == k
  {
    match k
    case 0 => case 1 => case 2 => case 3 => case 4 => case 5 =>
    case 6 => case 7 => case 8 => case 9 => case 10 => case 11 =>
  }

  /** The catalog lists no command twice. */
  lemma CatalogDistinct(i: nat, j: nat)
    requires i < j < |Catalog|
    ensures Catalog[i] != Catalog[j]
  {
    PositionOf(i);
    PositionOf(j);
  }

  /** The command a text belongs to, told by its length and, for the two
      process listings, which have the same length, by index 16 (`%cpu`
      against `%mem`). */
  function Identify(t: string): Option<Command> {
    match |t|
    case 8 => Some(HostnameCmd)
    case 31 => Some(UptimeCmd)
    case 58 => Some(OsInfoCmd)
    case 5 => Some(CpuCoresCmd)
    case 17 => Some(LoadAvgCmd)
    case 32 => Some(MemoryCmd)
    case 59 => Some(DiskCmd)
    case 39 => if t[16] == 'c' then Some(TopCpuCmd) else Some(TopMemCmd)
    case 11 => Some(SessionsCmd)
    case 96 => Some(DockerCmd)
    case 74 => Some(JournalCmd)
    case _ => None
  }

  lemma IdentifyText(c: Command)
    ensures Identify(CommandText(c)) == Some(c)
  {
    if Position(c) < 4 {
      IdentifySystem(c);
    } else if Position(c) < 8 {
      IdentifyResources(c);
    } else if Position(c) < 10 {
      IdentifyActivity(c);
    } else {
      IdentifyServices(c);
    }
  }

  // The lemmas below split the twelve texts in catalog order.

  lemma IdentifySystem(c: Command)
    requires Position(c) < 4
    ensures Identify(CommandText(c)) == Some(c)
  {
  }

  lemma IdentifyResources(c: Command)
    requires 4 <= Position(c) < 8
    ensures Identify(CommandText(c)) == Some(c)
  {
  }

  lemma IdentifyActivity(c: Command)
    requires 8 <= Position(c) < 10
    ensures Identify(CommandText(c)) == Some(c)
  {
  }

  lemma IdentifyServices(c: Command)
    requires 10 <= Position(c)
    ensures Identify(CommandText(c)) == Some(c)
  {
  }

  /** Different commands have different texts. */
  lemma CommandTextInjective(a: Command, b: Command)
    requires a != b
    ensures CommandText(a) != CommandText(b)
  {
    IdentifyText(a);
    IdentifyText(b);
  }

  /** No two catalog entries share a text, so every entry gets a result of its
      own and none is overwritten. */
  lemma CommandTextsDistinct()
    ensures forall i, j | 0 <= i < j < |CommandList()| :: CommandList()[i] != CommandList()[j]
  {
    var texts := CommandList();
    forall i, j | 0 <= i < j < |texts|
      ensures texts[i] != texts[j]
    {
      CatalogDistinct(i, j);
      CommandTextInjective(Catalog[i], Catalog[j]);
    }
  }

  /** The stdout of a command whose result is present and successful. */
  function Output(results: map<string, SSHResult>, c: Command): (o: Option<string>)
    ensures o.Some? <==> CommandText(c) in results && results[CommandText(c)].success
    ensures o.Some? ==> o.value == results[CommandText(c)].stdout
  {
    var key := CommandText(c);
    if key in results && results[key].success then Some(results[key].stdout) else None
  }

  // ---------------------------------------------------------------------------
  // The inline parsers of collect

  /** One line's part of the OS description: for a line with an `=`, the
      text between the first and the second `=` with surrounding double
      quotes removed; nothing for any other line. */
  function OsPart(line: string): (r: Option<string>)
    ensures r.Some? <==> !Lacks(line, '=')
    ensures r.Some? ==> |SplitOn(line, '=')| >= 2 && r.value == StripChar(SplitOn(line, '=')[1], '"')
  {
    if Lacks(line, '=') then None
    else
      SplitOnJoin(line, '=');
      Some(StripChar(SplitOn(line, '=')[1], '"'))
  }

  /** A `KEY="value"` line, with no `=` in the key or value and no quote in
      the value, gives back the value. */
  lemma OsPartOfQuoted(key: string, value: string)
    requires Lacks(key, '=') && Lacks(value, '=') && Lacks(value, '"')
    ensures OsPart(key + "=" + "\"" + value + "\"") == Some(value)
  {
    var quoted := "\"" + value + "\"";
    var line := key + "=" + quoted;
    assert key + "=" + "\"" + value + "\"" == line;
    QuotedLacks(value, '=');
    KeyValueSplit(key, quoted);
    assert line[|key|] == '=';
    assert OsPart(line) == Some(StripChar(quoted, '"'));
    StripQuotes(value);
  }

  lemma QuotedLacks(value: string, c: char)
    requires Lacks(value, c) && c != '"'
    ensures Lacks("\"" + value + "\"", c)
  {
    var quoted := "\"" + value + "\"";
    forall i | 0 <= i < |quoted|
      ensures quoted[i] != c
    {
      if 0 < i < |quoted| - 1 {
        assert quoted[i] == value[i - 1];
      }
    }
  }

  lemma KeyValueSplit(key: string, rest: string)
    requires Lacks(key, '=') && Lacks(rest, '=')
    ensures SplitOn(key + "=" + rest, '=') == [key, rest]
  {
    assert key + "=" + rest == key + ['='] + rest;
    SplitOnFirst(key, '=', rest);
    SplitOnLacking(rest, '=');
  }

  lemma StripQuotes(value: string)
    requires Lacks(value, '"')
    ensures StripChar("\"" + value + "\"", '"') == value
  {
    var quoted := "\"" + value + "\"";
    assert quoted[1..] == value + "\"";
    if |value| == 0 {
      assert LStripChar(quoted, '"') == "";
    } else {
      assert value[0] != '"';
      assert LStripChar(quoted, '"') == value + "\"";
      assert (value + "\"")[..|value|] == value;
      assert RStripChar(value + "\"", '"') == RStripChar(value, '"');
    }
  }

  /** The OS parts of the lines: one per line with an `=`, none dropped, in
      line order. */
  function OsParts(lines: seq<string>): (parts: seq<string>)
    ensures |parts| == CountSome(OsPart, lines)
    ensures forall i | 0 <= i < |lines| && OsPart(lines[i]).Some? :: OsPart(lines[i]).value in parts
    ensures forall k | 0 <= k < |parts| :: exists i | 0 <= i < |lines| :: OsPart(lines[i]) == Some(parts[k])
  {
    KeepSomeCount(OsPart, lines);
    KeepSomeKeeps(OsPart, lines);
    KeepSomeItems(OsPart, lines);
    KeepSome(OsPart, lines)
  }

  /** The parts of two blocks of lines are the first block's parts followed
      by the second's. */
  lemma OsPartsAppend(a: seq<string>, b: seq<string>)
    ensures OsParts(a + b) == OsParts(a) + OsParts(b)
  {
    KeepSomeAppend(OsPart, a, b);
  }

  /** The OS description: the parts joined by spaces. */

  function OsInfo(output: string): string {
    Join(OsParts(Lines(output)), " ")
  }

  /** The core count: `int` of the stripped output, 1 when that fails. */
  function Cores(output: Option<string>): int {
    match output
    case None => 1
    case Some(o) => ParseInt(Strip(o)).GetOr(1)
  }

  /** The CPU load metric and the per-core load. A first field that is not a
      number, or fewer than three fields, leaves the defaults; a zero core
      count divides by zero, which nothing catches. */
  function LoadMetric(table: Thresholds, cores: int, output: string): (r: Outcome<Option<(Metric, real)>>)
    ensures var parts := SplitWs(Strip(output));
            && (r.Raised? <==> |parts| > 0 && ParseFloat(parts[0]).Some? && cores == 0)
            && (r.Raised? ==> r.error == ZeroDivisionError)
            && (r.Returned? && r.value.Some? <==> |parts| >= 3 && ParseFloat(parts[0]).Some? && cores != 0)
    ensures r.Returned? && r.value.Some? ==>
              var parts := SplitWs(Strip(output));
              var load := ParseFloat(parts[0]).value;
              && r.value.value.0.name == "CPU Load"
              && r.value.value.0.value == RoundTo(load, 2)
              && r.value.value.0.unit == "/ " + IntText(cores) + " cores"
              && r.value.value.0.status == GetStatus(table, load / cores as real * 100.0, "cpu")
              && r.value.value.0.details == LoadAverages(parts[0], parts[1], parts[2])
              && r.value.value.1 == RoundTo(load / cores as real, 2)
  {
    var parts := SplitWs(Strip(output));
    if |parts| == 0 then Returned(None)
    else match ParseFloat(parts[0])
      case None => Returned(None)
      case Some(load) =>
        if cores == 0 then Raised(ZeroDivisionError)
        else if |parts| < 3 then Returned(None)
        else
          var perCore := load / cores as real;
          Returned(Some((Metric("CPU Load", RoundTo(load, 2), "/ " + IntText(cores) + " cores",
                                GetStatus(table, perCore * 100.0, "cpu"),
                                LoadAverages(parts[0], parts[1], parts[2])),
                         RoundTo(perCore, 2))))
  }

  /** The sessions metric for a count, against 10 / 50 users. */
  function SessionMetric(count: int): (m: Metric)
    ensures m.name == "Sessions" && m.value == count as real && m.unit == "users"
    ensures m.details == ActiveSessions(count)
    ensures m.status == Critical <==> count >= 50
    ensures m.status == Warning <==> 10 <= count < 50
    ensures m.status == Ok <==> count < 10
  {
    Metric("Sessions", count as real, "users", Classify(count as real, SessionPair), ActiveSessions(count))
  }

  // ---------------------------------------------------------------------------
  // Assembly

  const DefaultCpu := Metric("CPU Load", 0.0, "", Error, NoDetails)
  const DefaultRam := Metric("RAM", 0.0, "%", Error, NoDetails)
  const DefaultSwap := Metric("Swap", 0.0, "%", Ok, NoDetails)
  const DefaultSessions := Metric("Sessions", 0.0, "", Ok, NoDetails)

  /** A text field: the stripped output, or "unknown". */
  function TextField(output: Option<string>): string {
    match output
    case Some(o) => Strip(o)
    case None => "unknown"
  }

  /** The steps of `collect`, one per parsed field, each from its own
      command's output. */
  function LoadPart(table: Thresholds, results: map<string, SSHResult>): Outcome<Option<(Metric, real)>> {
    match Output(results, LoadAvgCmd)
    case Some(o) => LoadMetric(table, Cores(Output(results, CpuCoresCmd)), o)
    case None => Returned(None)
  }

  function MemoryPart(table: Thresholds, results: map<string, SSHResult>): Outcome<(Metric, Metric)> {
    match Output(results, MemoryCmd)
    case Some(o) => ParseMemory(table, o)
    case None => Returned((DefaultRam, DefaultSwap))
  }

  function DiskPart(table: Thresholds, results: map<string, SSHResult>): Outcome<seq<Metric>> {
    match Output(results, DiskCmd)
    case Some(o) => ParseDisk(table, o)
    case None => Returned([])
  }

  function DockerPart(results: map<string, SSHResult>): Outcome<Option<Metric>> {
    match Output(results, DockerCmd)
    case Some(o) =>
      if Contains(o, "NO_DOCKER") then Returned(None)
      else var m :- ParseDocker(o); Returned(Some(m))
    case None => Returned(None)
  }

  function JournalPart(results: map<string, SSHResult>): Outcome<Option<Metric>> {
    match Output(results, JournalCmd)
    case Some(o) => var m :- ParseJournal(o); Returned(Some(m))
    case None => Returned(None)
  }

  function SessionsPart(results: map<string, SSHResult>): Metric {
    match Output(results, SessionsCmd)
    case Some(o) => (match ParseInt(Strip(o)) case Some(n) => SessionMetric(n) case None => DefaultSessions)
    case None => DefaultSessions
  }

  /** The report the parsed fields make, with the text fields and the
      process lists filled in and nothing analysed yet. */
  function Build(serverName: string, results: map<string, SSHResult>, load: Option<(Metric, real)>,
                 memory: (Metric, Metric), disks: seq<Metric>, docker: Option<Metric>,
                 journal: Option<Metric>): HealthReport {
    HealthReport(
      serverName,
      TextField(Output(results, HostnameCmd)),
      TextField(Output(results, UptimeCmd)),
      match Output(results, OsInfoCmd) case Some(o) => OsInfo(o) case None => "unknown",
      Error,
      if load.Some? then load.value.0 else DefaultCpu,
      if load.Some? then load.value.1 else 0.0,
      memory.0,
      memory.1,
      disks,
      SessionsPart(results),
      docker,
      journal,
      match Output(results, TopCpuCmd) case Some(o) => ParseProcesses(o) case None => [],
      match Output(results, TopMemCmd) case Some(o) => ParseProcesses(o) case None => [],
      [], [], [])
  }

  /** The report before analysis, or the exception one of the parsers lets
      escape, in the order `collect` runs them. */
  function Assemble(serverName: string, table: Thresholds, results: map<string, SSHResult>): Outcome<HealthReport> {
    var load :- LoadPart(table, results);
    var memory :- MemoryPart(table, results);
    var disks :- DiskPart(table, results);
    var docker :- DockerPart(results);
    var journal :- JournalPart(results);
    Returned(Build(serverName, results, load, memory, disks, docker, journal))
  }

  /** Assembly returns exactly when every step returns, and then builds the
      report from the steps' values; when the load step raises, so does
      assembly, with the same exception. */
  lemma AssembleParts(serverName: string, table: Thresholds, results: map<string, SSHResult>)
    ensures var a := Assemble(serverName, table, results);
            && (a.Returned? <==> LoadPart(table, results).Returned? && MemoryPart(table, results).Returned?
                                 && DiskPart(table, results).Returned? && DockerPart(results).Returned?
                                 && JournalPart(results).Returned?)
            && (a.Returned? ==> a.value == Build(serverName, results, LoadPart(table, results).value,
                                                 MemoryPart(table, results).value, DiskPart(table, results).value,
                                                 DockerPart(results).value, JournalPart(results).value))
            && (LoadPart(table, results).Raised? ==> a == Raised(LoadPart(table, results).error))
  {
  }

  /** `collect` on a result map: assemble, then analyse. */
  function Collect(serverName: string, table: Thresholds, results: map<string, SSHResult>): (r: Outcome<HealthReport>)
    ensures r.Returned? <==> Assemble(serverName, table, results).Returned?
    ensures r.Returned? ==> r.value == Analyze(Assemble(serverName, table, results).value)
  {
    var report :- Assemble(serverName, table, results);
    Returned(Analyze(report))
  }

  // ---------------------------------------------------------------------------
  // Properties of collect

  /** Each field of a collected report comes from its own command alone: the
      parsed output when that command's result is present and successful,
      and the field's default otherwise. */
  lemma CollectFields(serverName: string, table: Thresholds, results: map<string, SSHResult>)
    requires Collect(serverName, table, results).Returned?
    ensures var r := Collect(serverName, table, results).value;
            && r.serverName == serverName
            && r.hostname == TextField(Output(results, HostnameCmd))
            && r.uptime == TextField(Output(results, UptimeCmd))
            && (Output(results, OsInfoCmd).None? ==> r.osInfo == "unknown")
            && (Output(results, OsInfoCmd).Some? ==> r.osInfo == OsInfo(Output(results, OsInfoCmd).value))
            && r.errors == []
    ensures var r := Collect(serverName, table, results).value;
            var o := Output(results, MemoryCmd);
            && (o.None? ==> r.ram == DefaultRam && r.swap == DefaultSwap)
            && (o.Some? ==> ParseMemory(table, o.value) == Returned((r.ram, r.swap)))
    ensures var r := Collect(serverName, table, results).value;
            var o := Output(results, DiskCmd);
            && (o.None? ==> r.disks == [])
            && (o.Some? ==> ParseDisk(table, o.value) == Returned(r.disks))
  {
    AssembleParts(serverName, table, results);
  }

  /** The sessions, Docker, journal and process fields, likewise: each is
      parsed from its own command's output when that command succeeded, and
      keeps its default otherwise. */
  lemma CollectServiceFields(serverName: string, table: Thresholds, results: map<string, SSHResult>)
    requires Collect(serverName, table, results).Returned?
    ensures var r := Collect(serverName, table, results).value;
            var o := Output(results, SessionsCmd);
            && (o.None? ==> r.sessions == DefaultSessions)
            && (o.Some? && ParseInt(Strip(o.value)).None? ==> r.sessions == DefaultSessions)
            && (o.Some? && ParseInt(Strip(o.value)).Some? ==> r.sessions == SessionMetric(ParseInt(Strip(o.value)).value))
    ensures var r := Collect(serverName, table, results).value;
            var o := Output(results, DockerCmd);
            && (o.None? ==> r.docker.None?)
            && (o.Some? && Contains(o.value, "NO_DOCKER") ==> r.docker.None?)
            && (o.Some? && !Contains(o.value, "NO_DOCKER") ==>
                  ParseDocker(o.value).Returned? && r.docker == Some(ParseDocker(o.value).value))
    ensures var r := Collect(serverName, table, results).value;
            var o := Output(results, JournalCmd);
            && (o.None? ==> r.journal.None?)
            && (o.Some? ==> ParseJournal(o.value).Returned? && r.journal == Some(ParseJournal(o.value).value))
    ensures var r := Collect(serverName, table, results).value;
            && (Output(results, TopCpuCmd).None? ==> r.topCpu == [])
            && (Output(results, TopCpuCmd).Some? ==> r.topCpu == ParseProcesses(Output(results, TopCpuCmd).value))
            && (Output(results, TopMemCmd).None? ==> r.topMem == [])
            && (Output(results, TopMemCmd).Some? ==> r.topMem == ParseProcesses(Output(results, TopMemCmd).value))
  {
    AssembleParts(serverName, table, results);
  }

  /** The steps that can raise run in the order load, memory, disk, Docker,
      journal, and the first one that raises decides the exception: a later
      step that would raise too is never reached. */
  lemma CollectFirstError(serverName: string, table: Thresholds, results: map<string, SSHResult>)
    ensures var c := Collect(serverName, table, results);
            && (LoadPart(table, results).Raised? ==> c == Raised(LoadPart(table, results).error))
            && (LoadPart(table, results).Returned? && MemoryPart(table, results).Raised? ==>
                  c == Raised(MemoryPart(table, results).error))
            && (LoadPart(table, results).Returned? && MemoryPart(table, results).Returned?
                && DiskPart(table, results).Raised? ==>
                  c == Raised(DiskPart(table, results).error))
            && (LoadPart(table, results).Returned? && MemoryPart(table, results).Returned?
                && DiskPart(table, results).Returned? && DockerPart(results).Raised? ==>
                  c == Raised(DockerPart(results).error))
            && (LoadPart(table, results).Returned? && MemoryPart(table, results).Returned?
                && DiskPart(table, results).Returned? && DockerPart(results).Returned?
                && JournalPart(results).Raised? ==>
                  c == Raised(JournalPart(results).error))
  {
  }

  /** A memory line with a non-integer count makes `collect` raise
      ValueError even when the Docker output would raise IndexError, because
      memory is parsed first. */
  lemma MemoryErrorFirst(serverName: string, table: Thresholds, results: map<string, SSHResult>)
    requires LoadPart(table, results).Returned?
    requires Output(results, MemoryCmd).Some? && ParseMemory(table, Output(results, MemoryCmd).value).Raised?
    ensures Collect(serverName, table, results) == Raised(ValueError)
  {
    CollectFirstError(serverName, table, results);
    MemoryRaisesValueError(table, Output(results, MemoryCmd).value);
  }

  /** Only the load, memory, disk, Docker and journal commands can make
      `collect` raise: with none of them answered successfully it returns. */
  lemma RaisesOnlyThroughParsers(serverName: string, table: Thresholds, results: map<string, SSHResult>)
    requires Collect(serverName, table, results).Raised?
    ensures exists c | c in {LoadAvgCmd, MemoryCmd, DiskCmd, DockerCmd, JournalCmd} :: Output(results, c).Some?
  {
    AssembleParts(serverName, table, results);
  }

  /** The report every default gives. */
  function DefaultReport(serverName: string): HealthReport {
    HealthReport(serverName, "unknown", "unknown", "unknown", Error, DefaultCpu, 0.0, DefaultRam, DefaultSwap,
                 [], DefaultSessions, None, None, [], [], [], [], [])
  }

  lemma AssembleAllFailed(serverName: string, table: Thresholds, results: map<string, SSHResult>)
    requires forall c: Command :: Output(results, c).None?
    ensures Assemble(serverName, table, results) == Returned(DefaultReport(serverName))
  {
    assert Output(results, HostnameCmd).None? && Output(results, UptimeCmd).None?;
    assert Output(results, OsInfoCmd).None? && Output(results, SessionsCmd).None?;
    assert Output(results, TopCpuCmd).None? && Output(results, TopMemCmd).None?;
    assert LoadPart(table, results) == Returned(None) by {
      assert Output(results, LoadAvgCmd).None?;
    }
    assert MemoryPart(table, results) == Returned((DefaultRam, DefaultSwap)) by {
      assert Output(results, MemoryCmd).None?;
    }
    assert DiskPart(table, results) == Returned([]) by {
      assert Output(results, DiskCmd).None?;
    }
    assert DockerPart(results) == Returned(None) by {
      assert Output(results, DockerCmd).None?;
    }
    assert JournalPart(results) == Returned(None) by {
      assert Output(results, JournalCmd).None?;
    }
    AssembleParts(serverName, table, results);
  }

  /** With every command failed or missing, every field keeps its default and
      the overall status is error, with no issues and no recommendations. */
  lemma AllFailed(serverName: string, table: Thresholds, results: map<string, SSHResult>)
    requires forall c: Command :: Output(results, c).None?
    ensures Collect(serverName, table, results).Returned?
    ensures var r := Collect(serverName, table, results).value;
            && r.hostname == "unknown" && r.uptime == "unknown" && r.osInfo == "unknown"
            && r.cpuLoad == DefaultCpu && r.cpuLoadPerCore == 0.0
            && r.ram == DefaultRam && r.swap == DefaultSwap && r.disks == []
            && r.sessions == DefaultSessions && r.docker.None? && r.journal.None?
            && r.topCpu == [] && r.topMem == []
            && r.overall == Error && r.issues == [] && r.recommendations == [] && r.errors == []
  {
    AssembleAllFailed(serverName, table, results);
    DefaultAnalyzed(serverName);
  }

  /** Analysis leaves the default report as it is: none of its metrics
      raises an issue, and its worst status is already error. */
  lemma DefaultAnalyzed(serverName: string)
    ensures Analyze(DefaultReport(serverName)) == DefaultReport(serverName)
  {
    var a := DefaultReport(serverName);
    assert DiskEntries([]) == [];
    assert Inspected(a) == [(CpuLoad, DefaultCpu), (Ram, DefaultRam), (Swap, DefaultSwap), (Sessions, DefaultSessions)];
    QuietMetricsAddNothing(Inspected(a));
    assert StatusList(a) == [Error, Error, Ok, Ok];
  }

  /** An empty result map is the all-failed case. */
  lemma NoResults(serverName: string, table: Thresholds)
    ensures Collect(serverName, table, map[]).Returned?
    ensures Collect(serverName, table, map[]).value.overall == Error
  {
    AllFailed(serverName, table, map[]);
  }

  /** The collected report's issues, recommendations and overall status are
      those of its metrics: no issue comes from anywhere else, and `errors`
      stays empty. */
  lemma CollectAnalyzed(serverName: string, table: Thresholds, results: map<string, SSHResult>)
    requires Collect(serverName, table, results).Returned?
    ensures var r := Collect(serverName, table, results).value;
            && r.issues == Issues(Inspected(r))
            && r.recommendations == Recommendations(Inspected(r))
            && r.recommendations == CriticalSubjects(r.issues)
            && r.overall == WorstOf(Statuses(Inspected(r)))
            && r.errors == []
  {
    AssembleParts(serverName, table, results);
    AnalyzeFresh(Assemble(serverName, table, results).value);
  }

  /** The CPU metric: classified under "cpu" on the 1-minute load per core,
      as a percentage, when the load line has three fields and the first is a
      number; the core count is `nproc`'s number or 1. */
  lemma CpuClassified(serverName: string, table: Thresholds, results: map<string, SSHResult>,
                      output: string, load: real)
    requires Output(results, LoadAvgCmd) == Some(output)
    requires |SplitWs(Strip(output))| >= 3 && ParseFloat(SplitWs(Strip(output))[0]) == Some(load)
    requires Collect(serverName, table, results).Returned?
    ensures var cores := Cores(Output(results, CpuCoresCmd));
            && cores != 0
            && Collect(serverName, table, results).value.cpuLoad.status
               == GetStatus(table, load / cores as real * 100.0, "cpu")
  {
    CollectCpu(serverName, table, results);
    var cores := Cores(Output(results, CpuCoresCmd));
    assert LoadPart(table, results) == LoadMetric(table, cores, output);
  }

  /** The collected CPU fields are those of the load step. */
  lemma CollectCpu(serverName: string, table: Thresholds, results: map<string, SSHResult>)
    requires Collect(serverName, table, results).Returned?
    ensures LoadPart(table, results).Returned?
    ensures var load := LoadPart(table, results).value;
            var r := Collect(serverName, table, results).value;
            && r.cpuLoad == (if load.Some? then load.value.0 else DefaultCpu)
            && r.cpuLoadPerCore == (if load.Some? then load.value.1 else 0.0)
  {
    AssembleParts(serverName, table, results);
  }

  /** A load line with fewer than three fields leaves the CPU metric at its
      error default, even when its first field is a number. */
  lemma CpuShortLine(serverName: string, table: Thresholds, results: map<string, SSHResult>, output: string)
    requires Output(results, LoadAvgCmd) == Some(output)
    requires |SplitWs(Strip(output))| < 3
    requires Collect(serverName, table, results).Returned?
    ensures Collect(serverName, table, results).value.cpuLoad == DefaultCpu
    ensures Collect(serverName, table, results).value.cpuLoadPerCore == 0.0
  {
    CollectCpu(serverName, table, results);
    assert LoadPart(table, results) == LoadMetric(table, Cores(Output(results, CpuCoresCmd)), output);
  }

  /** `nproc` printing 0 with a numeric load raises `ZeroDivisionError`. */
  lemma ZeroCores(serverName: string, table: Thresholds, results: map<string, SSHResult>, output: string)
    requires Output(results, CpuCoresCmd).Some? && ParseInt(Strip(Output(results, CpuCoresCmd).value)) == Some(0)
    requires Output(results, LoadAvgCmd) == Some(output)
    requires |SplitWs(Strip(output))| > 0 && ParseFloat(SplitWs(Strip(output))[0]).Some?
    ensures Collect(serverName, table, results) == Raised(ZeroDivisionError)
  {
    assert Cores(Output(results, CpuCoresCmd)) == 0;
    var part := LoadMetric(table, 0, output);
    assert LoadPart(table, results) == part;
    assert part == Raised(ZeroDivisionError);
    AssembleParts(serverName, table, results);
  }

  /** Docker output mentioning NO_DOCKER leaves the Docker metric absent. */
  lemma NoDocker(serverName: string, table: Thresholds, results: map<string, SSHResult>)
    requires Output(results, DockerCmd).Some? && Contains(Output(results, DockerCmd).value, "NO_DOCKER")
    requires Collect(serverName, table, results).Returned?
    ensures Collect(serverName, table, results).value.docker.None?
  {
    assert DockerPart(results) == Returned(None);
    AssembleParts(serverName, table, results);
  }

  // ---------------------------------------------------------------------------
  // The whole check: run the catalog, then collect

  /** Run the catalog through `execute_multiple` and collect from its result
      map. Every catalog command is run exactly once, in catalog order, and
      its field is assembled from its own result. */
  method CheckServer<W>(serverName: string, table: Thresholds, variant: Variant, timeout: int,
                        run: (W, string) -> (W, ExecOutcome), world: W)
    returns (report: Outcome<HealthReport>, results: map<string, SSHResult>, final: W)
    ensures forall c :: c in results <==> c in CommandList()
    ensures forall k | 0 <= k < |Catalog| ::
              results[CommandText(Catalog[k])] == RunAll(variant, timeout, run, world, CommandList()).1[k]
    ensures report == Collect(serverName, table, results)
  {
    var commands := CommandList();
    results, final := ExecuteMultiple(variant, timeout, run, world, commands);
    CommandTextsDistinct();
    assert forall k | 0 <= k < |commands| :: LastOccurrence(commands, k);
    report := Collect(serverName, table, results);
  }
}

=== FILE: formatter.dfy ===
/** The pure helpers of the report formatter: status emoji, the text progress
    bar, the capped CPU percentage, the summary's status order and totals, the
    list caps of the full and processes reports, and the short report's disk. */
module Formatter {
  import opened Outcomes
  import opened PyNumbers
  import opened Metrics
  import opened Analysis
  import opened StableSort

  const GreenCircle := "\U{1F7E2}"
  const YellowCircle := "\U{1F7E1}"
  const RedCircle := "\U{1F534}"
  const WhiteCircle := "\U{26AA}"

  /** `status_emoji`: a lookup with ⚪ for every status not in the table,
      including "error". */
  function StatusEmoji(status: string): (e: string)
    ensures status == "ok" ==> e == GreenCircle
    ensures status == "warning" ==> e == YellowCircle
    ensures status == "critical" ==> e == RedCircle
    ensures status !in {"ok", "warning", "critical"} ==> e == WhiteCircle
  {
    if status == "ok" then GreenCircle
    else if status == "warning" then YellowCircle
    else if status == "critical" then RedCircle
    else WhiteCircle
  }

  /** The four statuses get four different emoji; ⚪, the emoji of error, is
      also the one any other status gets. */
  lemma EmojiDistinct(a: Status, b: Status)
    requires a != b
    ensures StatusEmoji(StatusName(a)) != StatusEmoji(StatusName(b))
  {
  }

  // ---------------------------------------------------------------------------
  // progress_bar

  /** `c * n`: `n` copies of `c`, empty when `n` is not positive. */
  function Repeat(c: char, n: int): (s: string)
    ensures |s| == if n > 0 then n else 0
    ensures forall i | 0 <= i < |s| :: s[i] == c
    decreases if n > 0 then n else 0
  {
    if n <= 0 then "" else [c] + Repeat(c, n - 1)
  }

  const Full := '\U{2588}'
  const Light := '\U{2591}'

  /** The number of filled cells: `int(value / 100 * width)`. */
  function Filled(value: real, width: int): int {
    Trunc(value / 100.0 * width as real)
  }

  /** `progress_bar`: `filled` full blocks followed by `width - filled` light
      ones. */
  function ProgressBar(value: real, width: int): string {
    Repeat(Full, Filled(value, width)) + Repeat(Light, width - Filled(value, width))
  }

  /** For a percentage between 0 and 100 the bar is exactly `width` cells, of
      which the first `filled` are full, `filled` being within [0, width]. */
  lemma ProgressBarShape(value: real, width: int)
    requires 0.0 <= value <= 100.0 && width >= 0
    ensures var filled := Filled(value, width);
            && 0 <= filled <= width
            && |ProgressBar(value, width)| == width
            && (forall i | 0 <= i < filled :: ProgressBar(value, width)[i] == Full)
            && (forall i | filled <= i < width :: ProgressBar(value, width)[i] == Light)
  {
    var x := value / 100.0 * width as real;
    assert 0.0 <= x <= width as real by {
      assert 0.0 <= value / 100.0 <= 1.0;
      MulBounds(value / 100.0, width as real);
    }
  }

  lemma MulBounds(f: real, w: real)
    requires 0.0 <= f <= 1.0 && w >= 0.0
    ensures 0.0 <= f * w <= w
  {
  }

  /** A larger value never fills fewer cells. */
  lemma FilledMonotone(a: real, b: real, width: int)
    requires a <= b && width >= 0
    ensures Filled(a, width) <= Filled(b, width)
  {
    var x := a / 100.0 * width as real;
    var y := b / 100.0 * width as real;
    assert x <= y by {
      MulMonotone(a / 100.0, b / 100.0, width as real);
    }
    TruncMonotone(x, y);
  }

  lemma MulMonotone(a: real, b: real, w: real)
    requires a <= b && w >= 0.0
    ensures a * w <= b * w
  {
  }

  lemma TruncMonotone(x: real, y: real)
    requires x <= y
    ensures Trunc(x) <= Trunc(y)
  {
    if x >= 0.0 {
      assert x.Floor <= y.Floor;
    } else if y < 0.0 {
      assert (-y).Floor <= (-x).Floor;
    }
  }

  /** Above 100% the bar overflows: it has `filled` full cells and no light
      ones, more than `width` in all. */
  lemma ProgressBarOverflow(value: real, width: int)
    requires value > 100.0 && width > 0
    ensures Filled(value, width) >= width
    ensures |ProgressBar(value, width)| == Filled(value, width)
  {
    FilledMonotone(100.0, value, width);
    assert Filled(100.0, width) == width;
  }

  /** `min(per_core * 100, 100)`, the CPU percentage the bar is drawn from. */
  function CpuPercent(perCore: real): (p: real)
    ensures p <= 100.0 && p <= perCore * 100.0
    ensures p == 100.0 || p == perCore * 100.0
    ensures perCore >= 0.0 ==> p >= 0.0
  {
    if perCore * 100.0 < 100.0 then perCore * 100.0 else 100.0
  }

  /** The CPU bar of a non-negative load is always exactly `width` cells. */
  lemma CpuBarFits(perCore: real, width: int)
    requires perCore >= 0.0 && width >= 0
    ensures |ProgressBar(CpuPercent(perCore), width)| == width
  {
    ProgressBarShape(CpuPercent(perCore), width);
  }

  // ---------------------------------------------------------------------------
  // format_all_servers_summary

  /** The summary's order of statuses, with 4 for any status not listed. */
  function SummaryOrder(status: string): (rank: nat)
    ensures rank <= 4
  {
    if status == "critical" then 0
    else if status == "warning" then 1
    else if status == "error" then 2
    else if status == "ok" then 3
    else 4
  }

  function ReportOrder(r: HealthReport): nat {
    SummaryOrder(StatusName(r.overall))
  }

  /** The summary's ordering of the reports. */
  function SortReports(reports: seq<HealthReport>): seq<HealthReport> {
    Sort(reports, ReportOrder)
  }

  /** The summary's order puts the more severe status first, by the ranking
      of the overall status. */
  lemma OrderRank(a: Status, b: Status)
    requires SummaryOrder(StatusName(a)) <= SummaryOrder(StatusName(b))
    ensures Rank(b) <= Rank(a)
  {
  }

  /** The summary lists the reports critical first, then warning, error and
      ok; it lists every report once; and reports of the same status keep
      their input order. */
  lemma SortReportsSpec(reports: seq<HealthReport>)
    ensures var sorted := SortReports(reports);
            && multiset(sorted) == multiset(reports)
            && (forall i, j | 0 <= i < j < |sorted| :: Rank(sorted[j].overall) <= Rank(sorted[i].overall))
            && (forall k: nat :: WithKey(sorted, ReportOrder, k) == WithKey(reports, ReportOrder, k))
  {
    var sorted := SortReports(reports);
    SortPermutes(reports, ReportOrder);
    SortOrdered(reports, ReportOrder);
    forall i, j | 0 <= i < j < |sorted|
      ensures Rank(sorted[j].overall) <= Rank(sorted[i].overall)
    {
      OrderRank(sorted[i].overall, sorted[j].overall);
    }
    forall k: nat
      ensures WithKey(sorted, ReportOrder, k) == WithKey(reports, ReportOrder, k)
    {
      SortStable(reports, ReportOrder, k);
    }
  }

  /** The overall statuses of the reports, in order. */
  function OverallStatuses(reports: seq<HealthReport>): (r: seq<Status>)
    ensures |r| == |reports|
    ensures forall i | 0 <= i < |reports| :: r[i] == reports[i].overall
  {
    seq(|reports|, i requires 0 <= i < |reports| => reports[i].overall)
  }

  /** `sum(1 for r in reports if r.overall_status == s)`: the number of
      reports with the given overall status, that is, how often `s` occurs
      among their statuses. */
  function CountOverall(reports: seq<HealthReport>, s: Status): (n: nat)
    ensures n <= |reports|
    ensures n == multiset(OverallStatuses(reports))[s]
  {
    if |reports| == 0 then 0
    else
      assert OverallStatuses(reports) == [reports[0].overall] + OverallStatuses(reports[1..]);
      (if reports[0].overall == s then 1 else 0) + CountOverall(reports[1..], s)
  }

  /** The summary's totals count critical, warning and ok reports; together
      with the error reports, which are not counted, they make up all of
      them. */
  lemma {:induction false} TotalsCoverReports(reports: seq<HealthReport>)
    ensures CountOverall(reports, Critical) + CountOverall(reports, Warning) + CountOverall(reports, Ok)
            + CountOverall(reports, Error) == |reports|
    ensures CountOverall(reports, Critical) + CountOverall(reports, Warning) + CountOverall(reports, Ok) <= |reports|
    decreases |reports|
  {
    if |reports| > 0 {
      TotalsCoverReports(reports[1..]);
    }
  }

  // ---------------------------------------------------------------------------
  // List caps

  /** `xs[:n]`. */
  function Take<T>(xs: seq<T>, n: nat): (r: seq<T>)
    ensures |r| <= n && |r| <= |xs|
    ensures r == xs[..|r|]
    ensures |xs| <= n ==> r == xs
    ensures |xs| >= n ==> |r| == n
  {
    if |xs| <= n then xs else xs[..n]
  }

  /** The parts of a full report that list entries: at most five issues,
      three recommendations and three errors, each the first ones in order. */
  function ShownIssues(r: HealthReport): seq<Issue> {
    Take(r.issues, 5)
  }

  function ShownRecommendations(r: HealthReport): seq<string> {
    seq(|Take(r.recommendations, 3)|, k requires 0 <= k < |Take(r.recommendations, 3)| =>
      RecommendationText(Take(r.recommendations, 3)[k]))
  }

  function ShownErrors(r: HealthReport): seq<string> {
    Take(r.errors, 3)
  }

  lemma FullReportCaps(r: HealthReport)
    ensures |ShownIssues(r)| == if |r.issues| < 5 then |r.issues| else 5
    ensures ShownIssues(r) == r.issues[..|ShownIssues(r)|]
    ensures |ShownRecommendations(r)| == if |r.recommendations| < 3 then |r.recommendations| else 3
    ensures forall k | 0 <= k < |ShownRecommendations(r)| ::
              ShownRecommendations(r)[k] == RecommendationText(r.recommendations[k])
    ensures |ShownErrors(r)| == if |r.errors| < 3 then |r.errors| else 3
    ensures ShownErrors(r) == r.errors[..|ShownErrors(r)|]
  {
  }

  /** One row of the processes report: the percentage (CPU or memory), the
      user, and the command cut to 30 characters. */
  datatype ProcessRow = ProcessRow(percent: real, user: string, command: string)

  function Row(p: ProcessInfo, byCpu: bool): ProcessRow {
    ProcessRow(if byCpu then p.cpu else p.mem, p.user, if |p.command| <= 30 then p.command else p.command[..30])
  }

  /** The rows of one list of the processes report. */
  function ProcessRows(ps: seq<ProcessInfo>, byCpu: bool): (rows: seq<ProcessRow>)
    ensures |rows| == if |ps| < 5 then |ps| else 5
    ensures forall k | 0 <= k < |rows| ::
              && |rows[k].command| == (if |ps[k].command| < 30 then |ps[k].command| else 30)
              && rows[k].command == ps[k].command[..|rows[k].command|]
              && rows[k].user == ps[k].user
              && rows[k].percent == (if byCpu then ps[k].cpu else ps[k].mem)
  {
    var shown := Take(ps, 5);
    seq(|shown|, k requires 0 <= k < |shown| => Row(shown[k], byCpu))
  }

  // ---------------------------------------------------------------------------
  // The short report's disk

  /** The index of `max(disks, key=value)`: the first disk with the largest
      value. The two properties below determine that index: every disk is
      at most as full, and every disk before it is strictly less full. */
  method WorstDisk(disks: seq<Metric>) returns (w: nat)
    requires |disks| > 0
    ensures w < |disks|
    ensures forall k | 0 <= k < |disks| :: disks[k].value <= disks[w].value
    ensures forall k | 0 <= k < w :: disks[k].value < disks[w].value
  {
    w := 0;
    var i := 1;
    while i < |disks|
      invariant 1 <= i <= |disks|
      invariant w < i
      invariant forall k | 0 <= k < i :: disks[k].value <= disks[w].value
      invariant forall k | 0 <= k < w :: disks[k].value < disks[w].value
    {
      if disks[i].value > disks[w].value {
        w := i;
      }
      i := i + 1;
    }
  }
}

=== FILE: lineloops.dfy ===
/** The loop shape the disk and process parsers share: every line yields at
    most one item, and the items are kept in line order. The disk parser's
    loop can also raise, which ends it at the first raising line. */
module LineLoops {
  import opened Outcomes

  /** The items of the lines that yield one, in line order. */
  function KeepSome<T>(f: string -> Option<T>, lines: seq<string>): (r: seq<T>)
    ensures |r| <= |lines|
  {
    if |lines| == 0 then []
    else (if f(lines[0]).Some? then [f(lines[0]).value] else []) + KeepSome(f, lines[1..])
  }

  /** The loop works line by line: two blocks give the first block's items
      followed by the second's. */
  lemma {:induction false} KeepSomeAppend<T>(f: string -> Option<T>, a: seq<string>, b: seq<string>)
    ensures KeepSome(f, a + b) == KeepSome(f, a) + KeepSome(f, b)
    decreases |a|
  {
    if |a| > 0 {
      assert (a + b)[0] == a[0];
      assert (a + b)[1..] == a[1..] + b;
      KeepSomeAppend(f, a[1..], b);
    } else {
      assert a + b == b;
    }
  }

  /** Every item is what some line yields. */
  lemma {:induction false} KeepSomeItems<T>(f: string -> Option<T>, lines: seq<string>)
    ensures forall k | 0 <= k < |KeepSome(f, lines)| ::
              exists i | 0 <= i < |lines| :: f(lines[i]) == Some(KeepSome(f, lines)[k])
    decreases |lines|
  {
    if |lines| > 0 {
      KeepSomeItems(f, lines[1..]);
      var head := if f(lines[0]).Some? then [f(lines[0]).value] else [];
      var rest := KeepSome(f, lines[1..]);
      var r := KeepSome(f, lines);
      assert r == head + rest;
      forall k | 0 <= k < |r|
        ensures exists i | 0 <= i < |lines| :: f(lines[i]) == Some(r[k])
      {
        if k < |head| {
          assert f(lines[0]) == Some(r[k]);
        } else {
          assert r[k] == rest[k - |head|];
          var i :| 0 <= i < |lines[1..]| && f(lines[1..][i]) == Some(rest[k - |head|]);
          assert lines[i + 1] == lines[1..][i];
          assert f(lines[i + 1]) == Some(r[k]);
        }
      }
      assert forall k | 0 <= k < |r| :: exists i | 0 <= i < |lines| :: f(lines[i]) == Some(r[k]);
    } else {
      assert KeepSome(f, lines) == [];
    }
  }

  /** No yielding line is dropped: the item of every line that yields one is
      kept. */
  lemma {:induction false} KeepSomeKeeps<T>(f: string -> Option<T>, lines: seq<string>)
    ensures forall i | 0 <= i < |lines| && f(lines[i]).Some? :: f(lines[i]).value in KeepSome(f, lines)
    decreases |lines|
  {
    if |lines| > 0 {
      KeepSomeKeeps(f, lines[1..]);
      forall i | 0 <= i < |lines| && f(lines[i]).Some?
        ensures f(lines[i]).value in KeepSome(f, lines)
      {
        if i > 0 {
          assert lines[i] == lines[1..][i - 1];
        }
      }
    }
  }

  /** Every line that yields an item contributes it: the number of items is
      the number of yielding lines. */
  function CountSome<T>(f: string -> Option<T>, lines: seq<string>): nat {
    if |lines| == 0 then 0 else (if f(lines[0]).Some? then 1 else 0) + CountSome(f, lines[1..])
  }

  lemma {:induction false} KeepSomeCount<T>(f: string -> Option<T>, lines: seq<string>)
    ensures |KeepSome(f, lines)| == CountSome(f, lines)
    decreases |lines|
  {
    if |lines| > 0 {
      KeepSomeCount(f, lines[1..]);
    }
  }

  /** As `KeepSome`, but a line may raise, which ends the loop with that
      error. */
  function KeepSomeOrRaise<T>(f: string -> Outcome<Option<T>>, lines: seq<string>): (r: Outcome<seq<T>>)
    ensures r.Returned? ==> |r.value| <= |lines|
  {
    if |lines| == 0 then Returned([])
    else
      var first :- f(lines[0]);
      var rest :- KeepSomeOrRaise(f, lines[1..]);
      Returned((if first.Some? then [first.value] else []) + rest)
  }

  /** The raising loop returns exactly when no line raises. */
  lemma {:induction false} KeepSomeOrRaiseReturned<T>(f: string -> Outcome<Option<T>>, lines: seq<string>)
    ensures KeepSomeOrRaise(f, lines).Returned? <==> forall j | 0 <= j < |lines| :: f(lines[j]).Returned?
    decreases |lines|
  {
    if |lines| > 0 {
      KeepSomeOrRaiseReturned(f, lines[1..]);
      assert forall j | 1 <= j < |lines| :: lines[j] == lines[1..][j - 1];
    }
  }

  /** When it raises, it raises the first raising line's error. */
  lemma {:induction false} KeepSomeOrRaiseFirstError<T>(f: string -> Outcome<Option<T>>, lines: seq<string>, i: nat)
    requires i < |lines| && f(lines[i]).Raised?
    requires forall j | 0 <= j < i :: f(lines[j]).Returned?
    ensures KeepSomeOrRaise(f, lines) == Raised(f(lines[i]).error)
    decreases i
  {
    if i > 0 {
      forall j | 0 <= j < i - 1
        ensures f(lines[1..][j]).Returned?
      {
        assert lines[1..][j] == lines[j + 1];
      }
      assert lines[1..][i - 1] == lines[i];
      KeepSomeOrRaiseFirstError(f, lines[1..], i - 1);
    }
  }

  /** Two blocks of lines: the loop raises when either block does, and
      otherwise gives the first block's items followed by the second's. */
  lemma {:induction false} KeepSomeOrRaiseAppend<T>(f: string -> Outcome<Option<T>>, a: seq<string>, b: seq<string>)
    ensures KeepSomeOrRaise(f, a + b).Returned?
        <==> KeepSomeOrRaise(f, a).Returned? && KeepSomeOrRaise(f, b).Returned?
    ensures KeepSomeOrRaise(f, a + b).Returned? ==>
              KeepSomeOrRaise(f, a + b).value == KeepSomeOrRaise(f, a).value + KeepSomeOrRaise(f, b).value
    decreases |a|
  {
    if |a| == 0 {
      assert a + b == b;
      if KeepSomeOrRaise(f, b).Returned? {
        assert [] + KeepSomeOrRaise(f, b).value == KeepSomeOrRaise(f, b).value;
      }
    } else {
      assert (a + b)[0] == a[0];
      assert (a + b)[1..] == a[1..] + b;
      KeepSomeOrRaiseAppend(f, a[1..], b);
      if f(a[0]).Returned? && KeepSomeOrRaise(f, a[1..]).Returned? && KeepSomeOrRaise(f, b).Returned? {
        var first := f(a[0]).value;
        var head := if first.Some? then [first.value] else [];
        var x := KeepSomeOrRaise(f, a[1..]).value;
        var y := KeepSomeOrRaise(f, b).value;
        assert head + (x + y) == (head + x) + y;
      }
    }
  }

  /** When every raising line raises `e`, so does the loop. */
  lemma {:induction false} KeepSomeOrRaiseError<T>(f: string -> Outcome<Option<T>>, lines: seq<string>, e: PyError)
    requires forall j | 0 <= j < |lines| && f(lines[j]).Raised? :: f(lines[j]).error == e
    ensures KeepSomeOrRaise(f, lines).Raised? ==> KeepSomeOrRaise(f, lines).error == e
    decreases |lines|
  {
    if |lines| > 0 {
      assert forall j | 0 <= j < |lines| - 1 :: lines[1..][j] == lines[j + 1];
      KeepSomeOrRaiseError(f, lines[1..], e);
    }
  }

  /** What a line yields, for a line that does not raise. */
  function Settled<T>(f: string -> Outcome<Option<T>>): string -> Option<T> {
    x => if f(x).Returned? then f(x).value else None
  }

  lemma {:induction false} KeepSomeOrRaiseReturns<T>(f: string -> Outcome<Option<T>>, lines: seq<string>)
    requires forall j | 0 <= j < |lines| :: f(lines[j]).Returned?
    ensures KeepSomeOrRaise(f, lines) == Returned(KeepSome(Settled(f), lines))
    decreases |lines|
  {
    if |lines| > 0 {
      forall j | 0 <= j < |lines| - 1
        ensures f(lines[1..][j]).Returned?
      {
        assert lines[1..][j] == lines[j + 1];
      }
      KeepSomeOrRaiseReturns(f, lines[1..]);
    }
  }

  /** The summing loop of the Docker parser: every line adds a pair of
      amounts, or raises, which ends the loop with that error. */
  function SumOrRaise(f: string -> Outcome<(real, real)>, lines: seq<string>): Outcome<(real, real)> {
    if |lines| == 0 then Returned((0.0, 0.0))
    else
      var first :- f(lines[0]);
      var rest :- SumOrRaise(f, lines[1..]);
      Returned((first.0 + rest.0, first.1 + rest.1))
  }

  /** The summing loop returns exactly when no line raises. */
  lemma {:induction false} SumOrRaiseReturned(f: string -> Outcome<(real, real)>, lines: seq<string>)
    ensures SumOrRaise(f, lines).Returned? <==> forall j | 0 <= j < |lines| :: f(lines[j]).Returned?
    decreases |lines|
  {
    if |lines| > 0 {
      SumOrRaiseReturned(f, lines[1..]);
      assert forall j | 1 <= j < |lines| :: lines[j] == lines[1..][j - 1];
    }
  }

  /** When every raising line raises `e`, so does the loop. */
  lemma {:induction false} SumOrRaiseError(f: string -> Outcome<(real, real)>, lines: seq<string>, e: PyError)
    requires forall j | 0 <= j < |lines| && f(lines[j]).Raised? :: f(lines[j]).error == e
    ensures SumOrRaise(f, lines).Raised? ==> SumOrRaise(f, lines).error == e
    decreases |lines|
  {
    if |lines| > 0 {
      assert forall j | 0 <= j < |lines| - 1 :: lines[1..][j] == lines[j + 1];
      SumOrRaiseError(f, lines[1..], e);
    }
  }

  /** Two blocks of lines: the loop raises when either block does, and
      otherwise the sums of the blocks add up component-wise. */
  lemma {:induction false} SumOrRaiseAppend(f: string -> Outcome<(real, real)>, a: seq<string>, b: seq<string>)
    ensures SumOrRaise(f, a + b).Returned? <==> SumOrRaise(f, a).Returned? && SumOrRaise(f, b).Returned?
    ensures SumOrRaise(f, a + b).Returned? ==>
              SumOrRaise(f, a + b).value
                == (SumOrRaise(f, a).value.0 + SumOrRaise(f, b).value.0,
                    SumOrRaise(f, a).value.1 + SumOrRaise(f, b).value.1)
    decreases |a|
  {
    if |a| == 0 {
      assert a + b == b;
    } else {
      assert (a + b)[0] == a[0];
      assert (a + b)[1..] == a[1..] + b;
      SumOrRaiseAppend(f, a[1..], b);
    }
  }
}

=== FILE: metrics.dfy ===
/** Metrics, process samples and the threshold classifier of the health
    checker, with the default threshold table of the configuration. */
module Metrics {

  /** The severity of a metric; the source spells these "ok", "warning",
      "critical" and "error". */
  datatype Status = Ok | Warning | Critical | Error

  /** The source's spelling of a status. */
  function StatusName(s: Status): (name: string)
    ensures name in {"ok", "warning", "critical", "error"}
  {
    match s
    case Ok => "ok"
    case Warning => "warning"
    case Critical => "critical"
    case Error => "error"
  }

  lemma StatusNameInjective(a: Status, b: Status)
    requires StatusName(a) == StatusName(b)
    ensures a == b
  {
  }

  /** A metric's detail text, kept as the values it is formatted from; the
      `:.1f`/`:.0f` renderings are not modelled. */
  datatype Details =
    | NoDetails                                    // ""
    | ParseFailed                                  // "Failed to parse"
    | NoSwap                                       // "No swap"
    | UsedOfTotal(usedGb: real, totalGb: real)     // "{used:.1f}GB / {total:.1f}GB"
    | LoadAverages(one: string, five: string, fifteen: string)  // "1m: …, 5m: …, 15m: …"
    | ActiveSessions(count: int)                   // "{n} active sessions"
    | Reclaimable(gb: real)                        // "Reclaimable: {gb:.1f}GB"
    | JournalLogs(mb: real)                        // "Systemd logs: {mb:.0f}MB"

  /** One classified measurement. */
  datatype Metric = Metric(name: string, value: real, unit: string, status: Status, details: Details)

  /** One line of the top-processes listing. */
  datatype ProcessInfo = ProcessInfo(pid: int, user: string, cpu: real, mem: real, command: string)

  /** A warning and a critical boundary; values at or above a boundary reach
      its level. */
  datatype ThresholdPair = ThresholdPair(warning: int, critical: int)

  /** The percentage thresholds per metric kind ("cpu", "ram", "disk", "swap"). */
  type Thresholds = map<string, ThresholdPair>

  /** The pair used for a kind the table does not list. */
  const FallbackPair := ThresholdPair(70, 90)

  /** The configuration's default table. */
  const DefaultThresholds: Thresholds := map[
    "cpu" := ThresholdPair(70, 90),
    "ram" := ThresholdPair(70, 85),
    "disk" := ThresholdPair(70, 85),
    "swap" := ThresholdPair(30, 50)
  ]

  /** The fixed absolute pairs: active sessions, Docker usage in GB and
      journal usage in MB. */
  const SessionPair := ThresholdPair(10, 50)
  const DockerPair := ThresholdPair(5, 15)
  const JournalPair := ThresholdPair(500, 1000)

  /** Classify `value` against one pair: critical at or above the critical
      boundary, else warning at or above the warning boundary, else ok. */
  function Classify(value: real, pair: ThresholdPair): (s: Status)
    ensures s == Critical <==> value >= pair.critical as real
    ensures s == Warning <==> pair.warning as real <= value < pair.critical as real
    ensures s == Ok <==> value < pair.warning as real && value < pair.critical as real
  {
    if value >= pair.critical as real then Critical
    else if value >= pair.warning as real then Warning
    else Ok
  }

  /** `_get_status`: classify against the table entry for `kind`, or against
      the fallback pair when the table has none. */
  function GetStatus(table: Thresholds, value: real, kind: string): (s: Status)
    ensures s != Error
    ensures kind !in table ==> s == Classify(value, FallbackPair)
    ensures kind in table ==> s == Classify(value, table[kind])
  {
    Classify(value, if kind in table then table[kind] else FallbackPair)
  }

  /** Severity order of the classifier's results. */
  function Severity(s: Status): nat {
    match s
    case Ok => 0
    case Warning => 1
    case Critical => 2
    case Error => 0
  }

  /** A larger value never classifies as less severe. */
  lemma ClassifyMonotone(a: real, b: real, pair: ThresholdPair)
    requires a <= b
    ensures Severity(Classify(a, pair)) <= Severity(Classify(b, pair))
  {
  }

  /** The default table's boundaries: cpu 70/90, ram 70/85, disk 70/85 and
      swap 30/50, each classifying a value on those bounds; any other kind
      falls back to 70/90. */
  lemma DefaultTable(value: real)
    ensures DefaultThresholds["cpu"] == ThresholdPair(70, 90)
    ensures DefaultThresholds["ram"] == ThresholdPair(70, 85)
    ensures DefaultThresholds["disk"] == ThresholdPair(70, 85)
    ensures DefaultThresholds["swap"] == ThresholdPair(30, 50)
    ensures GetStatus(DefaultThresholds, value, "cpu") == Critical <==> value >= 90.0
    ensures GetStatus(DefaultThresholds, value, "cpu") == Warning <==> 70.0 <= value < 90.0
    ensures GetStatus(DefaultThresholds, value, "ram") == Critical <==> value >= 85.0
    ensures GetStatus(DefaultThresholds, value, "ram") == Warning <==> 70.0 <= value < 85.0
    ensures GetStatus(DefaultThresholds, value, "disk") == Critical <==> value >= 85.0
    ensures GetStatus(DefaultThresholds, value, "disk") == Warning <==> 70.0 <= value < 85.0
    ensures GetStatus(DefaultThresholds, value, "swap") == Critical <==> value >= 50.0
    ensures GetStatus(DefaultThresholds, value, "swap") == Warning <==> 30.0 <= value < 50.0
    ensures forall kind | kind !in DefaultThresholds ::
              GetStatus(DefaultThresholds, value, kind) == GetStatus(DefaultThresholds, value, "cpu")
    ensures DefaultThresholds.Keys == {"cpu", "ram", "disk", "swap"}
  {
  }
}

=== FILE: numbers.dfy ===
/** Python's numeric conversions as the health checker uses them: `int(s)`,
    `float(s)`, `str(n)`, `int(x)` on a float, and `round(x, n)`.

    Floats are modelled as exact reals: `int(s)` and `float(s)` read ASCII
    decimal literals (an optional sign, digits, and for `float` an optional
    fraction), surrounded by optional whitespace; `round` rounds half to even
    on the exact value. */
module PyNumbers {
  import opened Outcomes
  import opened PyText

  predicate IsDigit(c: char) {
    '0' <= c <= '9'
  }

  predicate AllDigits(s: string) {
    forall i | 0 <= i < |s| :: IsDigit(s[i])
  }

  /** The value of a string of decimal digits (0 for the empty string). */
  function DigitsValue(s: string): nat
    requires AllDigits(s)
  {
    if |s| == 0 then 0 else DigitsValue(s[..|s| - 1]) * 10 + (s[|s| - 1] as int - '0' as int)
  }

  function DigitChar(d: nat): (c: char)
    requires d < 10
    ensures IsDigit(c) && c as int - '0' as int == d
  {
    ('0' as int + d) as char
  }

  /** `str(n)` for a natural number: its shortest decimal spelling. */
  function NatText(n: nat): (s: string)
    ensures |s| > 0 && AllDigits(s)
    ensures DigitsValue(s) == n
  {
    if n < 10 then [DigitChar(n)]
    else
      var s := NatText(n / 10) + [DigitChar(n % 10)];
      assert s[..|s| - 1] == NatText(n / 10);
      s
  }

  /** `str(n)` for an integer. */
  function IntText(n: int): (s: string)
    ensures |s| > 0 && (s[0] == '-' || IsDigit(s[0])) && IsDigit(s[|s| - 1])
    ensures forall i | 0 < i < |s| :: IsDigit(s[i])
  {
    if n < 0 then "-" + NatText(-n) else NatText(n)
  }

  /** The shape `int()` accepts once surrounding whitespace is stripped: an
      optional sign followed by at least one digit. */
  predicate IsIntLiteral(t: string) {
    if |t| > 0 && (t[0] == '+' || t[0] == '-') then |t| > 1 && AllDigits(t[1..])
    else |t| > 0 && AllDigits(t)
  }

  /** `int(s)`: `None` stands for the `ValueError` it raises. */
  function ParseInt(s: string): (r: Option<int>)
    ensures r.Some? <==> IsIntLiteral(Strip(s))
  {
    var t := Strip(s);
    if |t| > 0 && (t[0] == '+' || t[0] == '-') then
      var ds := t[1..];
      if |ds| > 0 && AllDigits(ds) then
        var v: int := DigitsValue(ds);
        Some(if t[0] == '-' then -v else v)
      else None
    else if |t| > 0 && AllDigits(t) then Some(DigitsValue(t))
    else None
  }

  /** `int(str(n)) == n`. */
  lemma ParseIntText(n: int)
    ensures ParseInt(IntText(n)) == Some(n)
  {
    var s := IntText(n);
    StripFixed(s);
    if n < 0 {
      assert s[1..] == NatText(-n);
    }
  }

  /** The end of the run of digits that starts at `i`. */
  function DigitRun(s: string, i: nat): (j: nat)
    requires i <= |s|
    ensures i <= j <= |s|
    ensures forall k | i <= k < j :: IsDigit(s[k])
    ensures j == |s| || !IsDigit(s[j])
    decreases |s| - i
  {
    if i < |s| && IsDigit(s[i]) then DigitRun(s, i + 1) else i
  }

  function Pow10(n: nat): (p: nat)
    ensures p >= 1
  {
    if n == 0 then 1 else 10 * Pow10(n - 1)
  }

  /** The value of the decimal `w.f` for digit strings `w` and `f`. */
  function Decimal(w: string, f: string): real
    requires AllDigits(w) && AllDigits(f)
  {
    DigitsValue(w) as real + DigitsValue(f) as real / Scale(|f|)
  }

  /** An unsigned decimal literal: digits, optionally a point and more digits,
      with at least one digit in all. */
  function DecimalValue(body: string): Option<real> {
    var e := DigitRun(body, 0);
    if e == |body| then
      if e > 0 then Some(DigitsValue(body) as real) else None
    else if body[e] == '.' && AllDigits(body[e + 1..]) && (e > 0 || e + 1 < |body|) then
      Some(Decimal(body[..e], body[e + 1..]))
    else None
  }

  /** `float(s)`: `None` stands for the `ValueError` it raises. */
  function ParseFloat(s: string): (r: Option<real>)
    ensures r.Some? ==> Strip(s) != []
  {
    var t := Strip(s);
    if |t| > 0 && (t[0] == '+' || t[0] == '-') then
      match DecimalValue(t[1..])
      case None => None
      case Some(v) => Some(if t[0] == '-' then -v else v)
    else DecimalValue(t)
  }

  lemma DigitRunAll(s: string)
    requires AllDigits(s)
    ensures DigitRun(s, 0) == |s|
  {
  }

  /** A run of digits from `i` ends at the first non-digit `j`. */
  lemma {:induction false} DigitRunStops(s: string, i: nat, j: nat)
    requires i <= j < |s|
    requires forall k | i <= k < j :: IsDigit(s[k])
    requires !IsDigit(s[j])
    ensures DigitRun(s, i) == j
    decreases j - i
  {
    if i < j {
      DigitRunStops(s, i + 1, j);
    }
  }

  /** Every literal `int()` accepts, `float()` accepts with the same value. */
  lemma ParseFloatOfInt(s: string)
    requires ParseInt(s).Some?
    ensures ParseFloat(s) == Some(ParseInt(s).value as real)
  {
    var t := Strip(s);
    if |t| > 0 && (t[0] == '+' || t[0] == '-') {
      DigitRunAll(t[1..]);
    } else {
      DigitRunAll(t);
    }
  }

  /** `float(w + "." + f)` for digit strings `w` and `f` with at least one
      digit in all: the whole part plus the fraction. */
  lemma ParseFloatDecimal(w: string, f: string)
    requires AllDigits(w) && AllDigits(f) && |w| + |f| > 0
    ensures ParseFloat(w + "." + f) == Some(Decimal(w, f))
  {
    var s := w + "." + f;
    assert Strip(s) == s by {
      assert s[0] == '.' || IsDigit(s[0]);
      assert s[|s| - 1] == '.' || IsDigit(s[|s| - 1]);
      StripFixed(s);
    }
    DecimalValueParts(w, f);
  }

  lemma DecimalValueParts(w: string, f: string)
    requires AllDigits(w) && AllDigits(f) && |w| + |f| > 0
    ensures DecimalValue(w + "." + f) == Some(Decimal(w, f))
  {
    var s := w + "." + f;
    assert s[..|w|] == w;
    assert s[|w| + 1..] == f;
    assert s[|w|] == '.';
    assert forall k | 0 <= k < |w| :: IsDigit(s[k]);
    DigitRunStops(s, 0, |w|);
  }

  // ---------------------------------------------------------------------------
  // int(x) and round(x, n) on floats

  /** `int(x)` for a float: truncation toward zero. */
  function Trunc(x: real): (n: int)
    ensures 0.0 <= x ==> 0 <= n && n as real <= x < n as real + 1.0
    ensures x < 0.0 ==> n <= 0 && n as real - 1.0 < x <= n as real
  {
    if x >= 0.0 then x.Floor else -((-x).Floor)
  }

  /** The integer nearest to `y`, ties going to the even one. */
  function RoundHalfEven(y: real): (n: int)
    ensures -0.5 <= n as real - y <= 0.5
    ensures y - y.Floor as real == 0.5 ==> n % 2 == 0
  {
    var f := y.Floor;
    var frac := y - f as real;
    if frac > 0.5 then f + 1 else if frac < 0.5 then f else if f % 2 == 0 then f else f + 1
  }

  /** The size of one step of `round(x, digits)`, inverted: `10^digits`. */
  function Scale(digits: nat): (s: real)
    ensures s >= 1.0
  {
    Pow10(digits) as real
  }

  /** `round(x, digits)`. */
  function RoundTo(x: real, digits: nat): real {
    RoundHalfEven(x * Scale(digits)) as real / Scale(digits)
  }

  /** `round(x, digits)` is a whole number of steps of `10^-digits`, namely
      the number of steps nearest to `x`, ties going to the even one. */
  lemma RoundToSteps(x: real, digits: nat)
    ensures RoundTo(x, digits) * Scale(digits) == RoundHalfEven(x * Scale(digits)) as real
    ensures -0.5 <= (RoundTo(x, digits) - x) * Scale(digits) <= 0.5
  {
    ScaleBack(RoundHalfEven(x * Scale(digits)) as real, Scale(digits), x, x * Scale(digits), RoundTo(x, digits));
  }

  /** Multiplying `n / scale` back by `scale`, for `n` within half a step of
      `x * scale`. */
  lemma ScaleBack(n: real, scale: real, x: real, y: real, r: real)
    requires scale > 0.0 && y == x * scale && r == n / scale && -0.5 <= n - y <= 0.5
    ensures r * scale == n
    ensures -0.5 <= (r - x) * scale <= 0.5
  {
    DivisionCancels(n, scale);
    Distributes(r, x, scale);
  }

  lemma Distributes(a: real, b: real, c: real)
    ensures (a - b) * c == a * c - b * c
  {
  }

  lemma DivisionCancels(n: real, scale: real)
    requires scale > 0.0
    ensures (n / scale) * scale == n
  {
  }
}

=== FILE: outcomes.dfy ===
/** Optional values and the Python exceptions that escape the health checker.

    `Outcome` is failure-compatible, so a chain of parsing steps reads like the
    source's straight-line code: `var x :- Step(...);` stops at the first step
    that raises, exactly as an uncaught Python exception would. */
module Outcomes {

  /** A value that may be missing (Python's `Optional` / `None`). */
  datatype Option<+T> = None | Some(value: T) {

    /** The value, or `default` when it is missing. */
    function GetOr(default: T): T {
      match this
      case Some(v) => v
      case None => default
    }
  }

  /** The exception classes that some path of the health checker lets escape. */
  datatype PyError = ValueError | IndexError | ZeroDivisionError

  /** The result of running a piece of Python code: it returned a value, or raised. */
  datatype Outcome<+T> = Returned(value: T) | Raised(error: PyError) {

    predicate IsFailure() {
      Raised?
    }

    function PropagateFailure<U>(): Outcome<U>
      requires Raised?
    {
      Raised(error)
    }

    function Extract(): T
      requires Returned?
    {
      value
    }
  }
}

=== FILE: parsers.dfy ===
/** The text parsers of the health checker: `_parse_memory`, `_parse_disk`,
    `_parse_processes`, `_parse_size_to_gb`, `_parse_docker` and
    `_parse_journal`. Each reads one command's output; the paths on which the
    source lets a `ValueError` or `IndexError` escape return `Raised`. */
module Parsers {
  import opened Outcomes
  import opened PyText
  import opened PyNumbers
  import opened Metrics
  import opened LineLoops

  /** `output.strip().split("\n")`. */
  function Lines(output: string): (lines: seq<string>)
    ensures |lines| >= 1
  {
    SplitOn(Strip(output), '\n')
  }

  /** `1024 ** 3`, bytes per GB. */
  const BytesPerGb: real := 1073741824.0

  /** `int(s)` at a call site with no handler: a `ValueError` escapes. */
  function IntOrRaise(s: string): (r: Outcome<int>)
    ensures r.Returned? <==> ParseInt(s).Some?
    ensures r.Returned? ==> r.value == ParseInt(s).value
    ensures r.Raised? ==> r.error == ValueError
  {
    match ParseInt(s)
    case Some(n) => Returned(n)
    case None => Raised(ValueError)
  }

  // ===========================================================================
  // _parse_memory

  /** The default RAM metric of the parser. */
  const RamUnparsed := Metric("RAM", 0.0, "%", Error, ParseFailed)

  /** The default swap metric of the parser: no swap is not an error. */
  const NoSwapMetric := Metric("Swap", 0.0, "%", Ok, NoSwap)

  datatype MemoryKind = RamLine | SwapLine

  /** The kind, total and used counts of a `Mem:` or `Swap:` line with at least
      three fields; `None` for every other line. Both counts are converted
      before the total is looked at, so a bad count raises even when the total
      is 0. */
  function MemoryFields(line: string): Outcome<Option<(MemoryKind, int, int)>> {
    var parts := SplitWs(line);
    if |parts| >= 3 && (parts[0] == "Mem:" || parts[0] == "Swap:") then
      var total :- IntOrRaise(parts[1]);
      var used :- IntOrRaise(parts[2]);
      Returned(Some((if parts[0] == "Mem:" then RamLine else SwapLine, total, used)))
    else Returned(None)
  }

  /** A usage metric from a positive total: the percentage `used / total *
      100`, shown in "%" rounded to one decimal but classified under `kind`
      unrounded, with the two counts in GB as details. */
  function UsageMetric(table: Thresholds, name: string, kind: string, total: int, used: int): (m: Metric)
    requires total > 0
    ensures m.name == name && m.unit == "%"
    ensures m.value == RoundTo(used as real / total as real * 100.0, 1)
    ensures m.status == GetStatus(table, used as real / total as real * 100.0, kind)
    ensures m.status != Error
    ensures m.details == UsedOfTotal(used as real / BytesPerGb, total as real / BytesPerGb)
  {
    var pct := used as real / total as real * 100.0;
    Metric(name, RoundTo(pct, 1), "%", GetStatus(table, pct, kind),
           UsedOfTotal(used as real / BytesPerGb, total as real / BytesPerGb))
  }

  function RamMetric(table: Thresholds, total: int, used: int): Metric
    requires total > 0
  {
    UsageMetric(table, "RAM", "ram", total, used)
  }

  function SwapMetric(table: Thresholds, total: int, used: int): Metric
    requires total > 0
  {
    UsageMetric(table, "Swap", "swap", total, used)
  }

  /** One line's effect on `(ram, swap)`: a line with a positive total
      replaces the metric of its kind; a zero or negative total leaves it, and
      nothing is divided. */
  function MemoryStep(table: Thresholds, entry: Option<(MemoryKind, int, int)>, ram: Metric, swap: Metric): (Metric, Metric) {
    match entry
    case Some((kind, total, used)) =>
      if total <= 0 then (ram, swap)
      else if kind == RamLine then (RamMetric(table, total, used), swap)
      else (ram, SwapMetric(table, total, used))
    case None => (ram, swap)
  }

  /** The loop of `_parse_memory` from the current `(ram, swap)`. */
  function MemoryLoop(table: Thresholds, lines: seq<string>, ram: Metric, swap: Metric): Outcome<(Metric, Metric)>
    decreases |lines|
  {
    if |lines| == 0 then Returned((ram, swap))
    else
      var entry :- MemoryFields(lines[0]);
      var next := MemoryStep(table, entry, ram, swap);
      MemoryLoop(table, lines[1..], next.0, next.1)
  }

  /** `_parse_memory`. */
  function ParseMemory(table: Thresholds, output: string): Outcome<(Metric, Metric)> {
    MemoryLoop(table, Lines(output), RamUnparsed, NoSwapMetric)
  }

  /** Every `Mem:`/`Swap:` line with three fields has integer counts. */
  predicate MemoryWellFormed(lines: seq<string>) {
    forall i | 0 <= i < |lines| :: MemoryFields(lines[i]).Returned?
  }

  /** The counts on the last line of `kind` whose total is positive. */
  function LastSample(lines: seq<string>, kind: MemoryKind): (r: Option<(int, int)>)
    ensures r.Some? ==> r.value.0 > 0
  {
    if |lines| == 0 then None
    else
      var later := LastSample(lines[1..], kind);
      if later.Some? then later
      else match MemoryFields(lines[0])
        case Returned(Some((k, total, used))) => if k == kind && total > 0 then Some((total, used)) else None
        case _ => None
  }

  /** The metric a kind ends with: its last positive-total line, or the
      starting metric when there is none. */
  function Latest(table: Thresholds, sample: Option<(int, int)>, kind: MemoryKind, start: Metric): Metric
    requires sample.Some? ==> sample.value.0 > 0
  {
    match sample
    case None => start
    case Some((total, used)) =>
      if kind == RamLine then RamMetric(table, total, used) else SwapMetric(table, total, used)
  }

  lemma WellFormedCons(lines: seq<string>)
    requires |lines| > 0
    ensures MemoryWellFormed(lines) <==> MemoryFields(lines[0]).Returned? && MemoryWellFormed(lines[1..])
  {
    var rest := lines[1..];
    if MemoryWellFormed(lines) {
      forall i | 0 <= i < |rest|
        ensures MemoryFields(rest[i]).Returned?
      {
        assert rest[i] == lines[i + 1];
      }
    }
    if MemoryFields(lines[0]).Returned? && MemoryWellFormed(rest) {
      forall i | 0 <= i < |lines|
        ensures MemoryFields(lines[i]).Returned?
      {
        if i > 0 {
          assert lines[i] == rest[i - 1];
        }
      }
    }
  }

  /** The memory loop raises exactly when some `Mem:`/`Swap:` line has a count
      that is not an integer. */
  lemma {:induction false} MemoryRaises(table: Thresholds, lines: seq<string>, ram: Metric, swap: Metric)
    ensures MemoryLoop(table, lines, ram, swap).Returned? <==> MemoryWellFormed(lines)
    decreases |lines|
  {
    if |lines| > 0 {
      WellFormedCons(lines);
      if MemoryFields(lines[0]).Returned? {
        var next := MemoryStep(table, MemoryFields(lines[0]).value, ram, swap);
        MemoryRaises(table, lines[1..], next.0, next.1);
      }
    }
  }

  /** When the memory loop returns, each metric is the one computed from the
      last line of its kind with a positive total, or its starting value. */
  lemma {:induction false} MemoryLastWins(table: Thresholds, lines: seq<string>, ram: Metric, swap: Metric)
    requires MemoryLoop(table, lines, ram, swap).Returned?
    ensures MemoryLoop(table, lines, ram, swap).value
         == (Latest(table, LastSample(lines, RamLine), RamLine, ram),
             Latest(table, LastSample(lines, SwapLine), SwapLine, swap))
    decreases |lines|
  {
    if |lines| > 0 {
      var entry := MemoryFields(lines[0]).value;
      var next := MemoryStep(table, entry, ram, swap);
      assert MemoryLoop(table, lines, ram, swap) == MemoryLoop(table, lines[1..], next.0, next.1);
      MemoryLastWins(table, lines[1..], next.0, next.1);
      LatestStep(table, lines, RamLine, ram, swap);
      LatestStep(table, lines, SwapLine, ram, swap);
    }
  }

  /** One line's step moves the metric of `kind` towards the one its last
      sample gives. */
  lemma LatestStep(table: Thresholds, lines: seq<string>, kind: MemoryKind, ram: Metric, swap: Metric)
    requires |lines| > 0 && MemoryFields(lines[0]).Returned?
    ensures var next := MemoryStep(table, MemoryFields(lines[0]).value, ram, swap);
            if kind == RamLine then
              Latest(table, LastSample(lines, kind), kind, ram) == Latest(table, LastSample(lines[1..], kind), kind, next.0)
            else
              Latest(table, LastSample(lines, kind), kind, swap) == Latest(table, LastSample(lines[1..], kind), kind, next.1)
  {
  }

  /** The line `free` prints for RAM: `Mem:`, the total and the used count. */
  function MemLine(total: int, used: int): string {
    "Mem:" + " " + (IntText(total) + " " + IntText(used))
  }

  /** Printing a `Mem:` line with a positive total and parsing it back gives
      the RAM metric of those counts, with swap left at "No swap". */
  lemma MemLineParsed(table: Thresholds, total: int, used: int)
    requires total > 0
    ensures ParseMemory(table, MemLine(total, used)) == Returned((RamMetric(table, total, used), NoSwapMetric))
  {
    MemLineFields(total, used);
    MemLineAlone(total, used);
    MemoryLoopOne(table, MemLine(total, used), RamUnparsed, NoSwapMetric);
  }

  /** The loop over a single line is that line's step. */
  lemma MemoryLoopOne(table: Thresholds, line: string, ram: Metric, swap: Metric)
    requires MemoryFields(line).Returned?
    ensures MemoryLoop(table, [line], ram, swap) == Returned(MemoryStep(table, MemoryFields(line).value, ram, swap))
  {
    assert [line][1..] == [];
  }

  /** The fields of a printed `Mem:` line are read back as its counts. */
  lemma MemLineFields(total: int, used: int)
    ensures MemoryFields(MemLine(total, used)) == Returned(Some((RamLine, total, used)))
  {
    MemLineSplit(total, used);
    ParseIntText(total);
    ParseIntText(used);
  }

  /** A printed `Mem:` line splits into its three fields. */
  lemma MemLineSplit(total: int, used: int)
    ensures SplitWs(MemLine(total, used)) == ["Mem:", IntText(total), IntText(used)]
  {
    var t := IntText(total);
    var u := IntText(used);
    IntTextNoSpace(total);
    IntTextNoSpace(used);
    var fields := ["Mem:", t, u];
    assert forall f | f in fields :: |f| > 0 && NoSpace(f);
    assert Join(fields, " ") == MemLine(total, used) by {
      assert fields[1..] == [t, u];
      assert [t, u][1..] == [u];
      assert Join([u], " ") == u;
      assert Join([t, u], " ") == t + " " + u;
    }
    FieldsJoined(fields);
  }

  /** A printed `Mem:` line is a single line with nothing to strip. */
  lemma MemLineAlone(total: int, used: int)
    ensures Lines(MemLine(total, used)) == [MemLine(total, used)]
  {
    var t := IntText(total);
    var u := IntText(used);
    var line := MemLine(total, used);
    IntTextNoSpace(total);
    IntTextNoSpace(used);
    assert Lacks(line, '\n') by {
      forall i | 0 <= i < |line|
        ensures line[i] != '\n'
      {
        if 5 <= i < 5 + |t| {
          assert line[i] == t[i - 5];
        } else if 6 + |t| <= i {
          assert line[i] == u[i - 6 - |t|];
        }
      }
    }
    StripFixed(line);
    SplitOnLacking(line, '\n');
  }

  lemma IntTextNoSpace(n: int)
    ensures NoSpace(IntText(n)) && Lacks(IntText(n), '\n')
  {
  }

  /** `Mem: 1000 500` is 50% RAM, which the default table rates ok. */
  lemma MemoryExample()
    ensures var r := ParseMemory(DefaultThresholds, MemLine(1000, 500));
            r.Returned? && r.value.0.value == 50.0 && r.value.0.status == Ok
  {
    MemLineParsed(DefaultThresholds, 1000, 500);
    RamExample();
  }

  /** 500 used of 1000 is 50.0%, below the default RAM warning bound of 70. */
  lemma RamExample()
    ensures RamMetric(DefaultThresholds, 1000, 500).value == 50.0
    ensures RamMetric(DefaultThresholds, 1000, 500).status == Ok
  {
    assert 500 as real / 1000 as real * 100.0 == 50.0;
    assert Scale(1) == 10.0;
    RoundToSteps(50.0, 1);
    assert RoundHalfEven(500.0) == 500;
    DefaultTable(50.0);
  }

  /** The memory loop can raise only the ValueError of an unhandled `int()`. */
  lemma {:induction false} MemoryLoopError(table: Thresholds, lines: seq<string>, ram: Metric, swap: Metric)
    ensures MemoryLoop(table, lines, ram, swap).Raised? ==> MemoryLoop(table, lines, ram, swap).error == ValueError
    decreases |lines|
  {
    if |lines| > 0 && MemoryFields(lines[0]).Returned? {
      var next := MemoryStep(table, MemoryFields(lines[0]).value, ram, swap);
      MemoryLoopError(table, lines[1..], next.0, next.1);
    }
  }

  /** `_parse_memory` raises nothing but ValueError. */
  lemma MemoryRaisesValueError(table: Thresholds, output: string)
    ensures ParseMemory(table, output).Raised? ==> ParseMemory(table, output).error == ValueError
  {
    MemoryLoopError(table, Lines(output), RamUnparsed, NoSwapMetric);
  }

  /** With no usable `Mem:` line, RAM keeps its error default; with no usable
      `Swap:` line, swap stays "No swap" and ok. */
  lemma MemoryDefaults(table: Thresholds, output: string)
    requires ParseMemory(table, output).Returned?
    ensures LastSample(Lines(output), RamLine).None? ==> ParseMemory(table, output).value.0 == RamUnparsed
    ensures LastSample(Lines(output), SwapLine).None? ==> ParseMemory(table, output).value.1 == NoSwapMetric
    ensures ParseMemory(table, output).value.0.status == Error <==> LastSample(Lines(output), RamLine).None?
  {
    MemoryLastWins(table, Lines(output), RamUnparsed, NoSwapMetric);
  }

  // ===========================================================================
  // _parse_disk

  /** One line of the disk loop: lines with fewer than five fields are
      skipped; the total and used counts are converted with no handler; a
      percentage that is not a number after dropping trailing `%` skips the
      line. */
  /** A disk line raises when it has five fields but its total or used
      count is not an integer. */
  predicate DiskLineRaises(line: string) {
    var parts := SplitWs(line);
    |parts| >= 5 && (ParseInt(parts[1]).None? || ParseInt(parts[2]).None?)
  }

  function DiskLine(table: Thresholds, line: string): (r: Outcome<Option<Metric>>)
    ensures r.Raised? <==> DiskLineRaises(line)
    ensures r.Raised? ==> r.error == ValueError
    ensures r.Returned? && r.value.Some? <==>
              && |SplitWs(line)| >= 5
              && ParseInt(SplitWs(line)[1]).Some? && ParseInt(SplitWs(line)[2]).Some?
              && ParseFloat(RStripChar(SplitWs(line)[4], '%')).Some?
    ensures r.Returned? && r.value.Some? ==>
              && |SplitWs(line)| >= 5
              && r.value.value.name == "Disk " + SplitWs(line)[0]
              && r.value.value.unit == "%"
              && ParseFloat(RStripChar(SplitWs(line)[4], '%')) == Some(r.value.value.value)
              && r.value.value.status == GetStatus(table, r.value.value.value, "disk")
              && r.value.value.details
                   == UsedOfTotal(ParseInt(SplitWs(line)[2]).value as real / BytesPerGb,
                                  ParseInt(SplitWs(line)[1]).value as real / BytesPerGb)
  {
    var parts := SplitWs(line);
    if |parts| < 5 then Returned(None)
    else
      var total :- IntOrRaise(parts[1]);
      var used :- IntOrRaise(parts[2]);
      match ParseFloat(RStripChar(parts[4], '%'))
      case None => Returned(None)
      case Some(pct) =>
        Returned(Some(Metric("Disk " + parts[0], pct, "%", GetStatus(table, pct, "disk"),
                             UsedOfTotal(used as real / BytesPerGb, total as real / BytesPerGb))))
  }

  /** `DiskLine` under the given thresholds, as a value. */
  function DiskOf(table: Thresholds): string -> Outcome<Option<Metric>> {
    line => DiskLine(table, line)
  }

  /** The disk loop over `lines`: one metric per accepted line, in order. It
      returns exactly when no line raises, and every metric it returns is a
      percentage classified under the "disk" thresholds. */
  function DiskLines(table: Thresholds, lines: seq<string>): (r: Outcome<seq<Metric>>)
    ensures r.Returned? <==> forall j | 0 <= j < |lines| :: DiskLine(table, lines[j]).Returned?
    ensures r.Returned? ==> |r.value| == CountSome(Settled(DiskOf(table)), lines)
    ensures r.Returned? ==>
              forall i | 0 <= i < |lines| && DiskLine(table, lines[i]).Returned? && DiskLine(table, lines[i]).value.Some? ::
                DiskLine(table, lines[i]).value.value in r.value
    ensures r.Returned? ==>
              forall k | 0 <= k < |r.value| :: exists i | 0 <= i < |lines| :: DiskLine(table, lines[i]) == Returned(Some(r.value[k]))
    ensures r.Returned? ==> forall k | 0 <= k < |r.value| ::
              && r.value[k].unit == "%"
              && r.value[k].status == GetStatus(table, r.value[k].value, "disk")
  {
    var f := DiskOf(table);
    KeepSomeOrRaiseReturned(f, lines);
    var r := KeepSomeOrRaise(f, lines);
    if r.Returned? then
      KeepSomeOrRaiseReturns(f, lines);
      KeepSomeItems(Settled(f), lines);
      KeepSomeKeeps(Settled(f), lines);
      KeepSomeCount(Settled(f), lines);
      r
    else r
  }

  /** The disk loop raises exactly when some line has a non-integer total or
      used count, and the exception is ValueError. */
  lemma DiskRaises(table: Thresholds, lines: seq<string>)
    ensures DiskLines(table, lines).Raised? <==> exists i | 0 <= i < |lines| :: DiskLineRaises(lines[i])
    ensures DiskLines(table, lines).Raised? ==> DiskLines(table, lines).error == ValueError
  {
    KeepSomeOrRaiseError(DiskOf(table), lines, ValueError);
    if DiskLines(table, lines).Raised? {
      var i :| 0 <= i < |lines| && !DiskLine(table, lines[i]).Returned?;
      assert DiskLineRaises(lines[i]);
    }
  }

  /** `_parse_disk`. */
  function ParseDisk(table: Thresholds, output: string): Outcome<seq<Metric>> {
    DiskLines(table, Lines(output))
  }

  /** A line with fewer than five fields contributes nothing. */
  lemma DiskShortLineSkipped(table: Thresholds, line: string, rest: seq<string>)
    requires |SplitWs(line)| < 5
    ensures DiskLines(table, [line] + rest) == DiskLines(table, rest)
  {
    assert ([line] + rest)[1..] == rest;
    assert DiskLine(table, line) == Returned(None);
    var f := DiskOf(table);
    if KeepSomeOrRaise(f, rest).Returned? {
      assert [] + KeepSomeOrRaise(f, rest).value == KeepSomeOrRaise(f, rest).value;
    }
  }

  /** A `df` line `mount total used avail pct%`, fields separated by single
      spaces, gives the disk `"Disk " + mount` with value `pct`. */
  lemma DiskLineOfFields(table: Thresholds, mount: string, total: string, used: string,
                         avail: string, pct: string)
    requires forall f | f in [mount, total, used, avail, pct + "%"] :: |f| > 0 && NoSpace(f)
    requires ParseInt(total).Some? && ParseInt(used).Some?
    requires ParseFloat(pct).Some? && (pct == [] || pct[|pct| - 1] != '%')
    ensures DiskLine(table, Join([mount, total, used, avail, pct + "%"], " "))
         == Returned(Some(Metric("Disk " + mount, ParseFloat(pct).value, "%",
                                 GetStatus(table, ParseFloat(pct).value, "disk"),
                                 UsedOfTotal(ParseInt(used).value as real / BytesPerGb,
                                             ParseInt(total).value as real / BytesPerGb))))
  {
    FieldsJoined([mount, total, used, avail, pct + "%"]);
    PercentStripped(pct);
    DiskLineAccepted(table, Join([mount, total, used, avail, pct + "%"], " "), mount, total, used, avail, pct);
  }

  lemma FieldsJoined(fields: seq<string>)
    requires forall f | f in fields :: |f| > 0 && NoSpace(f)
    ensures SplitWs(Join(fields, " ")) == fields
  {
    forall k | 0 <= k < |fields|
      ensures |fields[k]| > 0 && NoSpace(fields[k])
    {
      assert fields[k] in fields;
    }
    SplitWsJoin(fields);
  }

  lemma PercentStripped(pct: string)
    requires pct == [] || pct[|pct| - 1] != '%'
    ensures RStripChar(pct + "%", '%') == pct
  {
    assert (pct + "%")[..|pct + "%"| - 1] == pct;
  }

  /** A line whose fields are a mount, two integer counts, anything, and a
      percentage followed by `%` gives its disk metric. */
  lemma DiskLineAccepted(table: Thresholds, line: string, mount: string, total: string, used: string,
                         avail: string, pct: string)
    requires SplitWs(line) == [mount, total, used, avail, pct + "%"]
    requires RStripChar(pct + "%", '%') == pct
    requires ParseInt(total).Some? && ParseInt(used).Some? && ParseFloat(pct).Some?
    ensures DiskLine(table, line)
         == Returned(Some(Metric("Disk " + mount, ParseFloat(pct).value, "%",
                                 GetStatus(table, ParseFloat(pct).value, "disk"),
                                 UsedOfTotal(ParseInt(used).value as real / BytesPerGb,
                                             ParseInt(total).value as real / BytesPerGb))))
  {
  }

  // ===========================================================================
  // _parse_processes

  /** `s[:n]`: the first `n` characters, or all of `s` when it is shorter. */
  function Prefix(s: string, n: nat): (r: string)
    ensures |r| == if |s| <= n then |s| else n
    ensures r == s[..|r|]
  {
    if |s| <= n then s else s[..n]
  }

  /** One `ps aux` line split into at most eleven fields; a line with fewer
      fields, or whose pid, %CPU or %MEM does not convert, is skipped. An
      accepted line gives its user, pid, %CPU, %MEM and its command cut to 50
      characters. */
  function ProcessLine(line: string): (r: Option<ProcessInfo>)
    ensures var parts := SplitMax(line, 10);
            r.Some? <==> |parts| == 11 && ParseInt(parts[1]).Some? && ParseFloat(parts[2]).Some? && ParseFloat(parts[3]).Some?
    ensures r.Some? ==>
              var parts := SplitMax(line, 10);
              && r.value.user == parts[0]
              && Some(r.value.pid) == ParseInt(parts[1])
              && Some(r.value.cpu) == ParseFloat(parts[2])
              && Some(r.value.mem) == ParseFloat(parts[3])
              && |r.value.command| == (if |parts[10]| <= 50 then |parts[10]| else 50)
              && r.value.command == parts[10][..|r.value.command|]
  {
    var parts := SplitMax(line, 10);
    if |parts| < 11 then None
    else match (ParseInt(parts[1]), ParseFloat(parts[2]), ParseFloat(parts[3]))
      case (Some(pid), Some(cpu), Some(mem)) =>
        Some(ProcessInfo(pid, parts[0], cpu, mem, Prefix(parts[10], 50)))
      case _ => None
  }

  /** An accepted process line has at least eleven whitespace fields, and the
      user, pid, %CPU and %MEM are read from the first four of them. */
  lemma ProcessLineFields(line: string)
    requires ProcessLine(line).Some?
    ensures |SplitWs(line)| >= 11
    ensures var p := ProcessLine(line).value; var fields := SplitWs(line);
            && p.user == fields[0]
            && Some(p.pid) == ParseInt(fields[1])
            && Some(p.cpu) == ParseFloat(fields[2])
            && Some(p.mem) == ParseFloat(fields[3])
  {
    SplitMaxAgrees(line, 10);
    var parts := SplitMax(line, 10);
    assert parts[0] == SplitWs(line)[0] && parts[1] == SplitWs(line)[1];
    assert parts[2] == SplitWs(line)[2] && parts[3] == SplitWs(line)[3];
  }

  /** Conversely, a line with at least eleven whitespace fields whose second
      is an integer and whose third and fourth are floats is accepted. */
  lemma ProcessLineAccepted(line: string)
    requires var fields := SplitWs(line);
             && |fields| >= 11
             && ParseInt(fields[1]).Some? && ParseFloat(fields[2]).Some? && ParseFloat(fields[3]).Some?
    ensures ProcessLine(line).Some?
  {
    SplitMaxAgrees(line, 10);
    var parts := SplitMax(line, 10);
    assert parts[1] == SplitWs(line)[1];
    assert parts[2] == SplitWs(line)[2] && parts[3] == SplitWs(line)[3];
  }

  /** The process loop over `lines`: accepted lines in input order, one item
      per accepted line, and none dropped. */
  function ProcessLines(lines: seq<string>): (r: seq<ProcessInfo>)
    ensures |r| == CountSome(ProcessLine, lines)
    ensures forall k | 0 <= k < |r| :: exists i | 0 <= i < |lines| :: ProcessLine(lines[i]) == Some(r[k])
    ensures forall i | 0 <= i < |lines| && ProcessLine(lines[i]).Some? :: ProcessLine(lines[i]).value in r
    ensures forall k | 0 <= k < |r| :: |r[k].command| <= 50
  {
    KeepSomeItems(ProcessLine, lines);
    KeepSomeCount(ProcessLine, lines);
    KeepSomeKeeps(ProcessLine, lines);
    KeepSome(ProcessLine, lines)
  }

  /** `_parse_processes`. */
  function ParseProcesses(output: string): seq<ProcessInfo> {
    ProcessLines(Lines(output))
  }

  /** A line with fewer than eleven fields is skipped. */
  lemma ProcessShortLineSkipped(line: string, rest: seq<string>)
    requires |SplitWs(line)| < 11
    ensures ProcessLines([line] + rest) == ProcessLines(rest)
  {
    assert ([line] + rest)[1..] == rest;
    if ProcessLine(line).Some? {
      ProcessLineFields(line);
    }
  }

  // ===========================================================================
  // _parse_size_to_gb

  /** `float(text) / divisor`, or 0 when `float` raises. */
  function ScaledOrZero(value: Option<real>, divisor: real): real
    requires divisor > 0.0
  {
    match value
    case Some(v) => v / divisor
    case None => 0.0
  }

  /** The unit `_parse_size_to_gb` picks in an upper-cased size and the
      divisor to GB that goes with it: the first of GB, MB, KB and B that
      occurs anywhere in the string, or no unit. */
  function UnitOf(s: string): (u: (string, real))
    ensures u.0 == "GB" <==> Contains(s, "GB")
    ensures u.0 == "MB" <==> !Contains(s, "GB") && Contains(s, "MB")
    ensures u.0 == "KB" <==> !Contains(s, "GB") && !Contains(s, "MB") && Contains(s, "KB")
    ensures u.0 == "B" <==> !Contains(s, "GB") && !Contains(s, "MB") && !Contains(s, "KB") && Contains(s, "B")
    ensures u.0 == "" <==> !Contains(s, "GB") && !Contains(s, "MB") && !Contains(s, "KB") && !Contains(s, "B")
    ensures u.0 in {"GB", ""} ==> u.1 == 1.0
    ensures u.0 == "MB" ==> u.1 == 1024.0
    ensures u.0 == "KB" ==> u.1 == 1024.0 * 1024.0
    ensures u.0 == "B" ==> u.1 == 1024.0 * 1024.0 * 1024.0
  {
    if Contains(s, "GB") then ("GB", 1.0)
    else if Contains(s, "MB") then ("MB", 1024.0)
    else if Contains(s, "KB") then ("KB", 1048576.0)
    else if Contains(s, "B") then ("B", 1073741824.0)
    else ("", 1.0)
  }

  /** `_parse_size_to_gb`: the unit is removed from the upper-cased string
      (every occurrence of it) and the rest is read as a float; any
      `ValueError` gives 0. */
  function SizeToGb(size: string): real {
    var s := Upper(Strip(size));
    var (unit, divisor) := UnitOf(s);
    ScaledOrZero(ParseFloat(if unit == "" then s else RemoveAll(s, unit)), divisor)
  }

  /** A numeral: digits and decimal points only. */
  predicate IsNumeral(d: string) {
    forall i | 0 <= i < |d| :: IsDigit(d[i]) || d[i] == '.'
  }

  /** A string ending in a letter (or any character that is not a digit, a
      point or whitespace) is not a float. */
  lemma {:induction false} FloatRejectsTrailingLetter(s: string)
    requires |s| > 0
    requires var c := s[|s| - 1]; !IsDigit(c) && c != '.' && !IsSpace(c)
    ensures ParseFloat(s) == None
  {
    var a := SkipSpace(s, 0);
    var e := TrimEnd(s, |s|);
    assert e == |s|;
    var t := Strip(s);
    assert |t| > 0 && t[|t| - 1] == s[|s| - 1];
    if |t| > 0 && (t[0] == '+' || t[0] == '-') {
      DecimalRejectsTrailingLetter(t[1..]);
    } else {
      DecimalRejectsTrailingLetter(t);
    }
  }

  lemma DecimalRejectsTrailingLetter(body: string)
    requires |body| == 0 || (var c := body[|body| - 1]; !IsDigit(c) && c != '.')
    ensures DecimalValue(body) == None
  {
    var e := DigitRun(body, 0);
    if |body| > 0 {
      assert e < |body|;
      if body[e] == '.' {
        assert e + 1 < |body|;
        assert body[e + 1..][|body| - e - 2] == body[|body| - 1];
      }
    }
  }

  lemma NumeralUnchanged(d: string, unit: string)
    requires IsNumeral(d) && |d| > 0
    requires |unit| > 0 && forall i | 0 <= i < |unit| :: 'A' <= unit[i] <= 'Z'
    ensures Upper(Strip(d + unit)) == d + unit
  {
    var s := d + unit;
    assert !IsSpace(s[0]) by {
      assert s[0] == d[0];
    }
    assert !IsSpace(s[|s| - 1]) by {
      assert s[|s| - 1] == unit[|unit| - 1];
    }
    StripFixed(s);
    forall i | 0 <= i < |s|
      ensures !('a' <= s[i] <= 'z')
    {
      if i < |d| {
        assert s[i] == d[i];
      } else {
        assert s[i] == unit[i - |d|];
      }
    }
    UpperFixed(s);
  }

  lemma NumeralLacks(d: string, c: char)
    requires IsNumeral(d) && !IsDigit(c) && c != '.'
    ensures Lacks(d, c)
  {
  }

  lemma NotContainedUnit(d: string, unit: string, pat: string)
    requires IsNumeral(d) && |pat| > 0 && !IsDigit(pat[0]) && pat[0] != '.'
    requires Lacks(unit, pat[0])
    ensures !Contains(d + unit, pat)
  {
    NumeralLacks(d, pat[0]);
    LacksFirstNotContains(d + unit, pat);
  }

  lemma UnitOfGb(d: string)
    requires IsNumeral(d)
    ensures UnitOf(d + "GB") == ("GB", 1.0)
  {
    ContainsSuffix(d, "GB");
  }

  lemma UnitOfMb(d: string)
    requires IsNumeral(d)
    ensures UnitOf(d + "MB") == ("MB", 1024.0)
  {
    NotContainedUnit(d, "MB", "GB");
    ContainsSuffix(d, "MB");
  }

  lemma UnitOfKb(d: string)
    requires IsNumeral(d)
    ensures UnitOf(d + "KB") == ("KB", 1048576.0)
  {
    NotContainedUnit(d, "KB", "GB");
    NotContainedUnit(d, "KB", "MB");
    ContainsSuffix(d, "KB");
  }

  lemma UnitOfBytes(d: string, unit: string)
    requires IsNumeral(d) && unit in {"B", "TB"}
    ensures UnitOf(d + unit) == ("B", 1073741824.0)
  {
    NotContainedUnit(d, unit, "GB");
    NotContainedUnit(d, unit, "MB");
    NotContainedUnit(d, unit, "KB");
    if unit == "B" {
      ContainsSuffix(d, "B");
    } else {
      assert d + unit == (d + "T") + "B";
      ContainsSuffix(d + "T", "B");
    }
  }

  /** "dGB" for a numeral `d` that reads as the float `v` is `v` GB. */
  lemma SizeGb(d: string, v: real)
    requires IsNumeral(d) && |d| > 0 && ParseFloat(d) == Some(v)
    ensures SizeToGb(d + "GB") == v
  {
    NumeralUnchanged(d, "GB");
    UnitOfGb(d);
    NumeralLacks(d, 'G');
    RemoveAllSuffix(d, "GB");
  }

  /** "dMB" is `v / 1024` GB. */
  lemma SizeMb(d: string, v: real)
    requires IsNumeral(d) && |d| > 0 && ParseFloat(d) == Some(v)
    ensures SizeToGb(d + "MB") == v / 1024.0
  {
    NumeralUnchanged(d, "MB");
    UnitOfMb(d);
    NumeralLacks(d, 'M');
    RemoveAllSuffix(d, "MB");
  }

  /** "dKB" is `v / 1024²` GB. */
  lemma SizeKb(d: string, v: real)
    requires IsNumeral(d) && |d| > 0 && ParseFloat(d) == Some(v)
    ensures SizeToGb(d + "KB") == v / 1048576.0
  {
    NumeralUnchanged(d, "KB");
    UnitOfKb(d);
    NumeralLacks(d, 'K');
    RemoveAllSuffix(d, "KB");
  }

  /** "dB" is `v / 1024³` GB. */
  lemma SizeBytes(d: string, v: real)
    requires IsNumeral(d) && |d| > 0 && ParseFloat(d) == Some(v)
    ensures SizeToGb(d + "B") == v / 1073741824.0
  {
    NumeralUnchanged(d, "B");
    UnitOfBytes(d, "B");
    NumeralLacks(d, 'B');
    RemoveAllSuffix(d, "B");
  }

  /** "dTB" is 0: removing "B" leaves "dT", which is not a float, and the
      `ValueError` is caught. */
  lemma SizeTerabytesIgnored(d: string)
    requires IsNumeral(d) && |d| > 0
    ensures SizeToGb(d + "TB") == 0.0
  {
    NumeralUnchanged(d, "TB");
    UnitOfBytes(d, "TB");
    SizeUnfold(d + "TB", "B", 1073741824.0);
    assert d + "TB" == (d + "T") + "B";
    NumeralLacks(d, 'B');
    assert Lacks(d + "T", 'B');
    RemoveAllSuffix(d + "T", "B");
    assert (d + "T")[|d + "T"| - 1] == 'T';
    FloatRejectsTrailingLetter(d + "T");
  }

  /** The size of a text already stripped and upper-cased, with a unit. */
  lemma SizeUnfold(size: string, unit: string, divisor: real)
    requires Upper(Strip(size)) == size && UnitOf(size) == (unit, divisor) && unit != ""
    ensures SizeToGb(size) == ScaledOrZero(ParseFloat(RemoveAll(size, unit)), divisor)
  {
  }

  lemma NumeralFixed(d: string)
    requires IsNumeral(d) && |d| > 0
    ensures Upper(Strip(d)) == d
  {
    assert !IsSpace(d[0]) && !IsSpace(d[|d| - 1]);
    StripFixed(d);
    assert Upper(d) == d;
  }

  lemma UnitOfBare(d: string)
    requires IsNumeral(d)
    ensures UnitOf(d) == ("", 1.0)
  {
    NumeralLacks(d, 'G');
    LacksFirstNotContains(d, "GB");
    NumeralLacks(d, 'M');
    LacksFirstNotContains(d, "MB");
    NumeralLacks(d, 'K');
    LacksFirstNotContains(d, "KB");
    NumeralLacks(d, 'B');
    LacksFirstNotContains(d, "B");
  }

  /** A bare numeral is read as GB. */
  lemma SizeBareNumber(d: string, v: real)
    requires IsNumeral(d) && |d| > 0 && ParseFloat(d) == Some(v)
    ensures SizeToGb(d) == v
  {
    NumeralFixed(d);
    UnitOfBare(d);
  }

  // ===========================================================================
  // _parse_docker

  /** The docker loop raises on a line with at least two tab fields and a
      third field that is non-empty whitespace: it has no first word. */
  predicate DockerLineRaises(line: string) {
    var parts := SplitOn(line, '\t');
    |parts| > 2 && parts[2] != "" && |SplitWs(parts[2])| == 0
  }

  /** The reclaimable text of a line's tab fields: the first word of the third
      field, or "0" when there is no third field or it is empty. */
  function ReclaimWord(parts: seq<string>): string
    requires !(|parts| > 2 && parts[2] != "" && |SplitWs(parts[2])| == 0)
  {
    if |parts| > 2 && parts[2] != "" then SplitWs(parts[2])[0] else "0"
  }

  /** The size and reclaimable fields of one `docker system df` line split on
      tabs; a line with fewer than two fields adds nothing. A third field that
      is non-empty but only whitespace has no first word: `IndexError`. */
  function DockerLine(line: string): (r: Outcome<Option<(real, real)>>)
    ensures r.Raised? <==> DockerLineRaises(line)
    ensures r.Raised? ==> r.error == IndexError
    ensures r.Returned? ==> (r.value.Some? <==> |SplitOn(line, '\t')| >= 2)
    ensures r.Returned? && r.value.Some? ==>
              && r.value.value.0 == SizeToGb(SplitOn(line, '\t')[1])
              && r.value.value.1 == SizeToGb(ReclaimWord(SplitOn(line, '\t')))
  {
    var parts := SplitOn(line, '\t');
    if |parts| < 2 then Returned(None)
    else if DockerLineRaises(line) then Raised(IndexError)
    else Returned(Some((SizeToGb(parts[1]), SizeToGb(ReclaimWord(parts)))))
  }

  /** What one line adds to the sums: its size and reclaimable GB, nothing
      when it has fewer than two tab fields, or the line's `IndexError`. */
  function DockerStep(line: string): (r: Outcome<(real, real)>)
    ensures r.Raised? <==> DockerLineRaises(line)
    ensures r.Raised? ==> r.error == IndexError
    ensures r.Returned? && |SplitOn(line, '\t')| < 2 ==> r.value == (0.0, 0.0)
    ensures r.Returned? && |SplitOn(line, '\t')| >= 2 ==> Returned(Some(r.value)) == DockerLine(line)
  {
    match DockerLine(line)
    case Raised(e) => Raised(e)
    case Returned(None) => Returned((0.0, 0.0))
    case Returned(Some(pair)) => Returned(pair)
  }

  /** The Docker loop's running sums work line by line: the sums of two
      blocks of lines add up component-wise, and the loop raises when either
      block does. */
  lemma DockerSumsAppend(a: seq<string>, b: seq<string>)
    ensures SumOrRaise(DockerStep, a + b).Returned? <==> SumOrRaise(DockerStep, a).Returned? && SumOrRaise(DockerStep, b).Returned?
    ensures SumOrRaise(DockerStep, a + b).Returned? ==>
              SumOrRaise(DockerStep, a + b).value
                == (SumOrRaise(DockerStep, a).value.0 + SumOrRaise(DockerStep, b).value.0,
                    SumOrRaise(DockerStep, a).value.1 + SumOrRaise(DockerStep, b).value.1)
  {
    SumOrRaiseAppend(DockerStep, a, b);
  }

  /** A single line's sums are what the line adds. */
  lemma DockerSumsOne(line: string)
    ensures SumOrRaise(DockerStep, [line]).Raised? <==> DockerLineRaises(line)
    ensures SumOrRaise(DockerStep, [line]).Returned? ==> SumOrRaise(DockerStep, [line]) == DockerStep(line)
  {
    assert [line][1..] == [];
  }

  /** `_parse_docker`: always a metric when it returns: the total size
      rounded to one decimal, classified unrounded against 5 GB / 15 GB, with
      the reclaimable sum as details. */
  function ParseDocker(output: string): (r: Outcome<Metric>)
    ensures r.Returned? <==> SumOrRaise(DockerStep, Lines(output)).Returned?
    ensures r.Returned? ==> r.value.name == "Docker" && r.value.unit == "GB"
    ensures r.Returned? ==> r.value.value == RoundTo(SumOrRaise(DockerStep, Lines(output)).value.0, 1)
    ensures r.Returned? ==> r.value.details == Reclaimable(SumOrRaise(DockerStep, Lines(output)).value.1)
    ensures r.Returned? ==>
              && (r.value.status == Critical <==> SumOrRaise(DockerStep, Lines(output)).value.0 >= 15.0)
              && (r.value.status == Warning <==> 5.0 <= SumOrRaise(DockerStep, Lines(output)).value.0 < 15.0)
              && (r.value.status == Ok <==> SumOrRaise(DockerStep, Lines(output)).value.0 < 5.0)
  {
    var sums :- SumOrRaise(DockerStep, Lines(output));
    Returned(Metric("Docker", RoundTo(sums.0, 1), "GB", Classify(sums.0, DockerPair), Reclaimable(sums.1)))
  }

  lemma DockerRaises(lines: seq<string>)
    ensures SumOrRaise(DockerStep, lines).Raised? <==> exists i | 0 <= i < |lines| :: DockerLineRaises(lines[i])
    ensures SumOrRaise(DockerStep, lines).Raised? ==> SumOrRaise(DockerStep, lines).error == IndexError
  {
    SumOrRaiseReturned(DockerStep, lines);
    SumOrRaiseError(DockerStep, lines, IndexError);
    if SumOrRaise(DockerStep, lines).Raised? {
      var i :| 0 <= i < |lines| && !DockerStep(lines[i]).Returned?;
      assert DockerLineRaises(lines[i]);
    }
  }

  // ===========================================================================
  // _parse_journal

  predicate IsNumericChar(c: char) {
    IsDigit(c) || c == '.'
  }

  /** The first index at or after `i` that holds a digit or a point. */
  function SkipToNumeric(s: string, i: nat): (j: nat)
    requires i <= |s|
    ensures i <= j <= |s|
    ensures forall k | i <= k < j :: !IsNumericChar(s[k])
    ensures j == |s| || IsNumericChar(s[j])
    decreases |s| - i
  {
    if i < |s| && !IsNumericChar(s[i]) then SkipToNumeric(s, i + 1) else i
  }

  /** The end of the run of digits and points that starts at `i`. */
  function NumericRun(s: string, i: nat): (j: nat)
    requires i <= |s|
    ensures i <= j <= |s|
    ensures forall k | i <= k < j :: IsNumericChar(s[k])
    ensures j == |s| || !IsNumericChar(s[j])
    decreases |s| - i
  {
    if i < |s| && IsNumericChar(s[i]) then NumericRun(s, i + 1) else i
  }

  /** `s[i..j]` is the leftmost maximal run of digits and points in `s`: no
      such character comes before `i`, and the run cannot be extended. */
  predicate FirstRun(s: string, i: nat, j: nat) {
    && i < j <= |s|
    && (forall k | 0 <= k < i :: !IsNumericChar(s[k]))
    && (forall k | i <= k < j :: IsNumericChar(s[k]))
    && (j == |s| || !IsNumericChar(s[j]))
  }

  /** The first match of `([\d.]+)([KMGT]?)`: the leftmost run of digits and
      points, and the unit letter right after it if it is one of K, M, G, T. */
  function SizeMatch(s: string): (m: Option<(string, string)>)
    ensures m.None? <==> forall k | 0 <= k < |s| :: !IsNumericChar(s[k])
    ensures m.Some? ==> exists i: nat, j: nat ::
              && FirstRun(s, i, j)
              && m.value.0 == s[i..j]
              && m.value.1 == (if j < |s| && s[j] in {'K', 'M', 'G', 'T'} then [s[j]] else "")
    ensures m.Some? ==> |m.value.0| > 0 && IsNumeral(m.value.0)
  {
    var start := SkipToNumeric(s, 0);
    if start == |s| then None
    else
      var end := NumericRun(s, start);
      var unit := if end < |s| && s[end] in {'K', 'M', 'G', 'T'} then [s[end]] else "";
      assert FirstRun(s, start, end);
      Some((s[start..end], unit))
  }

  /** The size in MB for a value and a unit: G is ×1024, M is as is, K is
      /1024, and any other unit (T included) is read as bytes. */
  function JournalMb(value: real, unit: string): real {
    if unit == "G" then value * 1024.0
    else if unit == "M" then value
    else if unit == "K" then value / 1024.0
    else value / (1024.0 * 1024.0)
  }

  /** The journal size in MB: 0 when nothing matches; `float` of the matched
      run raises when the run is not a number (such as "." or "1.2.3"). */
  function JournalSize(output: string): Outcome<real> {
    match SizeMatch(Strip(output))
    case None => Returned(0.0)
    case Some((number, unit)) =>
      match ParseFloat(number)
      case None => Raised(ValueError)
      case Some(v) => Returned(JournalMb(v, unit))
  }

  /** `_parse_journal`: always a metric when it returns: the size in MB
      rounded to a whole number, classified unrounded against 500 MB /
      1000 MB, with the unrounded size as details. */
  function ParseJournal(output: string): (r: Outcome<Metric>)
    ensures r.Returned? <==> JournalSize(output).Returned?
    ensures r.Returned? ==> r.value.name == "Journal" && r.value.unit == "MB"
    ensures r.Returned? ==> r.value.value == RoundTo(JournalSize(output).value, 0)
    ensures r.Returned? ==> r.value.details == JournalLogs(JournalSize(output).value)
    ensures r.Returned? ==>
              && (r.value.status == Critical <==> JournalSize(output).value >= 1000.0)
              && (r.value.status == Warning <==> 500.0 <= JournalSize(output).value < 1000.0)
              && (r.value.status == Ok <==> JournalSize(output).value < 500.0)
  {
    var size :- JournalSize(output);
    Returned(Metric("Journal", RoundTo(size, 0), "MB", Classify(size, JournalPair), JournalLogs(size)))
  }

  /** Output without any digit or point gives 0 MB. */
  lemma JournalNoMatch(output: string)
    requires forall i | 0 <= i < |output| :: !IsNumericChar(output[i])
    ensures JournalSize(output) == Returned(0.0)
  {
    var s := Strip(output);
    var a := SkipSpace(output, 0);
    var e := TrimEnd(output, |output|);
    assert forall i | 0 <= i < |s| :: !IsNumericChar(s[i]) by {
      if e > a {
        assert forall i | 0 <= i < |s| :: s[i] == output[a + i];
      }
    }
  }

  /** The size pattern finds a numeral followed by its unit letter. */
  lemma SizeMatchOf(d: string, unit: string)
    requires IsNumeral(d) && |d| > 0
    requires unit in {"G", "M", "K", "T", ""}
    ensures SizeMatch(d + unit) == Some((d, unit))
  {
    var s := d + unit;
    assert s[0] == d[0];
    assert SkipToNumeric(s, 0) == 0;
    var end := NumericRun(s, 0);
    assert forall k | 0 <= k < |d| :: s[k] == d[k];
    if unit != "" {
      assert !IsNumericChar(s[|d|]);
      NumericRunStops(s, 0, |d|);
      assert s[|d|] == unit[0];
    } else {
      assert s == d;
    }
    assert s[0..end] == d;
  }

  /** The unit conversions for a journal size `d` followed by a unit letter. */
  lemma JournalUnits(d: string, v: real, unit: string)
    requires IsNumeral(d) && |d| > 0 && ParseFloat(d) == Some(v)
    requires unit in {"G", "M", "K", "T", ""}
    ensures JournalSize(d + unit) == Returned(
              if unit == "G" then v * 1024.0
              else if unit == "M" then v
              else if unit == "K" then v / 1024.0
              else v / 1048576.0)
  {
    SizeStripped(d, unit);
    SizeMatchOf(d, unit);
    assert JournalSize(d + unit) == Returned(JournalMb(v, unit));
  }

  lemma SizeStripped(d: string, unit: string)
    requires IsNumeral(d) && |d| > 0
    requires unit in {"G", "M", "K", "T", ""}
    ensures Strip(d + unit) == d + unit
  {
    var s := d + unit;
    assert !IsSpace(s[0]) by {
      assert s[0] == d[0];
    }
    assert !IsSpace(s[|s| - 1]) by {
      if unit == "" {
        assert s[|s| - 1] == d[|d| - 1];
      }
    }
    StripFixed(s);
  }

  lemma {:induction false} NumericRunStops(s: string, i: nat, j: nat)
    requires i <= j < |s|
    requires forall k | i <= k < j :: IsNumericChar(s[k])
    requires !IsNumericChar(s[j])
    ensures NumericRun(s, i) == j
    decreases j - i
  {
    if i < j {
      NumericRunStops(s, i + 1, j);
    }
  }
}

=== FILE: stablesort.dfy ===
/** A stable sort by a natural-number key, as Python's `sorted(xs, key=k)`:
    the result is ordered by key, and elements with equal keys keep their
    input order. */
module StableSort {

  /** The elements of `xs` whose key is `k`, in order. */
  function WithKey<T>(xs: seq<T>, key: T -> nat, k: nat): (r: seq<T>)
    ensures |r| <= |xs|
  {
    if |xs| == 0 then []
    else (if key(xs[0]) == k then [xs[0]] else []) + WithKey(xs[1..], key, k)
  }

  predicate Ordered<T>(xs: seq<T>, key: T -> nat) {
    forall i, j | 0 <= i < j < |xs| :: key(xs[i]) <= key(xs[j])
  }

  /** Insert `x` after every element whose key is at most its own. */
  function Insert<T>(x: T, xs: seq<T>, key: T -> nat): (r: seq<T>)
    ensures |r| == |xs| + 1
  {
    if |xs| == 0 then [x]
    else if key(x) < key(xs[0]) then [x] + xs
    else [xs[0]] + Insert(x, xs[1..], key)
  }

  /** Insertion sort, inserting the elements in input order. */
  function Sort<T>(xs: seq<T>, key: T -> nat): (r: seq<T>)
    ensures |r| == |xs|
    decreases |xs|
  {
    if |xs| == 0 then [] else Insert(xs[|xs| - 1], Sort(xs[..|xs| - 1], key), key)
  }

  /** Inserting adds exactly `x`. */
  lemma {:induction false} InsertPermutes<T>(x: T, xs: seq<T>, key: T -> nat)
    ensures multiset(Insert(x, xs, key)) == multiset(xs) + multiset{x}
    decreases |xs|
  {
    if |xs| > 0 && key(x) >= key(xs[0]) {
      var rest := xs[1..];
      InsertPermutes(x, rest, key);
      assert Insert(x, xs, key) == [xs[0]] + Insert(x, rest, key);
      assert xs == [xs[0]] + rest;
    }
  }

  /** The sorted result holds exactly the input's elements. */
  lemma {:induction false} SortPermutes<T>(xs: seq<T>, key: T -> nat)
    ensures multiset(Sort(xs, key)) == multiset(xs)
    decreases |xs|
  {
    if |xs| > 0 {
      var init := xs[..|xs| - 1];
      var last := xs[|xs| - 1];
      var sorted := Sort(init, key);
      assert Sort(xs, key) == Insert(last, sorted, key);
      SortPermutes(init, key);
      InsertPermutes(last, sorted, key);
      assert xs == init + [last];
      assert multiset(xs) == multiset(init) + multiset{last};
    }
  }

  lemma OrderedTail<T>(xs: seq<T>, key: T -> nat)
    requires |xs| > 0 && Ordered(xs, key)
    ensures Ordered(xs[1..], key)
  {
    var rest := xs[1..];
    forall i, j | 0 <= i < j < |rest|
      ensures key(rest[i]) <= key(rest[j])
    {
      assert rest[i] == xs[i + 1] && rest[j] == xs[j + 1];
    }
  }

  /** Inserting keeps a lower bound that `x` and every element of `xs` meet. */
  lemma {:induction false} InsertAbove<T>(x: T, xs: seq<T>, key: T -> nat, m: nat)
    requires key(x) >= m
    requires forall i | 0 <= i < |xs| :: key(xs[i]) >= m
    ensures forall i | 0 <= i < |Insert(x, xs, key)| :: key(Insert(x, xs, key)[i]) >= m
    decreases |xs|
  {
    if |xs| > 0 && key(x) >= key(xs[0]) {
      var rest := xs[1..];
      assert forall i | 0 <= i < |rest| :: rest[i] == xs[i + 1];
      InsertAbove(x, rest, key, m);
      assert Insert(x, xs, key) == [xs[0]] + Insert(x, rest, key);
    }
  }

  lemma {:induction false} InsertOrdered<T>(x: T, xs: seq<T>, key: T -> nat)
    requires Ordered(xs, key)
    ensures Ordered(Insert(x, xs, key), key)
    decreases |xs|
  {
    if |xs| > 0 && key(x) >= key(xs[0]) {
      var rest := xs[1..];
      OrderedTail(xs, key);
      InsertOrdered(x, rest, key);
      assert forall i | 0 <= i < |rest| :: rest[i] == xs[i + 1];
      InsertAbove(x, rest, key, key(xs[0]));
      var tail := Insert(x, rest, key);
      var r := [xs[0]] + tail;
      assert Insert(x, xs, key) == r;
      forall i, j | 0 <= i < j < |r|
        ensures key(r[i]) <= key(r[j])
      {
        assert r[j] == tail[j - 1];
        if i > 0 {
          assert r[i] == tail[i - 1];
        }
      }
    }
  }

  /** The sorted result is ordered by key. */
  lemma {:induction false} SortOrdered<T>(xs: seq<T>, key: T -> nat)
    ensures Ordered(Sort(xs, key), key)
    decreases |xs|
  {
    if |xs| > 0 {
      SortOrdered(xs[..|xs| - 1], key);
      InsertOrdered(xs[|xs| - 1], Sort(xs[..|xs| - 1], key), key);
    }
  }

  lemma {:induction false} WithKeyAppend<T>(a: seq<T>, b: seq<T>, key: T -> nat, k: nat)
    ensures WithKey(a + b, key, k) == WithKey(a, key, k) + WithKey(b, key, k)
    decreases |a|
  {
    if |a| == 0 {
      assert a + b == b;
    } else {
      var ab := a + b;
      assert ab[0] == a[0];
      assert ab[1..] == a[1..] + b;
      WithKeyAppend(a[1..], b, key, k);
      var h := if key(a[0]) == k then [a[0]] else [];
      assert WithKey(ab, key, k) == h + WithKey(ab[1..], key, k);
      assert WithKey(a, key, k) == h + WithKey(a[1..], key, k);
    }
  }

  /** Elements of a sorted list with a larger key than `x` do not carry key
      `key(x)`. */
  lemma {:induction false} WithKeyAbove<T>(x: T, xs: seq<T>, key: T -> nat)
    requires Ordered(xs, key)
    requires |xs| > 0 && key(x) < key(xs[0])
    ensures WithKey(xs, key, key(x)) == []
    decreases |xs|
  {
    if |xs| > 1 {
      var rest := xs[1..];
      assert key(xs[0]) <= key(xs[1]);
      OrderedTail(xs, key);
      WithKeyAbove(x, rest, key);
    }
  }

  lemma WithKeySingle<T>(x: T, key: T -> nat, k: nat)
    ensures WithKey([x], key, k) == if key(x) == k then [x] else []
  {
    assert [x][1..] == [];
  }

  /** Inserting `x` places it after every element with its key, and leaves
      the other keys' runs unchanged. */
  lemma {:induction false} InsertWithKey<T>(x: T, xs: seq<T>, key: T -> nat, k: nat)
    requires Ordered(xs, key)
    ensures WithKey(Insert(x, xs, key), key, k) == WithKey(xs, key, k) + (if key(x) == k then [x] else [])
    decreases |xs|
  {
    var hx: seq<T> := if key(x) == k then [x] else [];
    if |xs| == 0 {
      WithKeySingle(x, key, k);
    } else if key(x) < key(xs[0]) {
      var r := [x] + xs;
      assert Insert(x, xs, key) == r;
      assert r[0] == x && r[1..] == xs;
      assert WithKey(r, key, k) == hx + WithKey(xs, key, k);
      if key(x) == k {
        WithKeyAbove(x, xs, key);
      }
    } else {
      var rest := xs[1..];
      var h0: seq<T> := if key(xs[0]) == k then [xs[0]] else [];
      OrderedTail(xs, key);
      InsertWithKey(x, rest, key, k);
      var tail := Insert(x, rest, key);
      var r := [xs[0]] + tail;
      assert Insert(x, xs, key) == r;
      assert r[0] == xs[0] && r[1..] == tail;
      assert WithKey(r, key, k) == h0 + WithKey(tail, key, k);
      assert WithKey(xs, key, k) == h0 + WithKey(rest, key, k);
      assert h0 + (WithKey(rest, key, k) + hx) == (h0 + WithKey(rest, key, k)) + hx;
    }
  }

  /** Stability: for every key, the elements with that key appear in the
      result in the same order as in the input. */
  lemma {:induction false} SortStable<T>(xs: seq<T>, key: T -> nat, k: nat)
    ensures WithKey(Sort(xs, key), key, k) == WithKey(xs, key, k)
    decreases |xs|
  {
    if |xs| > 0 {
      var init := xs[..|xs| - 1];
      var last := xs[|xs| - 1];
      var sorted := Sort(init, key);
      assert Sort(xs, key) == Insert(last, sorted, key);
      SortStable(init, key, k);
      SortOrdered(init, key);
      InsertWithKey(last, sorted, key, k);
      WithKeyAppend(init, [last], key, k);
      WithKeySingle(last, key, k);
      assert init + [last] == xs;
    }
  }
}

=== FILE: text.dfy ===
/** The Python `str` operations the parsers rely on, over `seq<char>`:
    `strip()`, `split()`, `split(None, n)`, `split(sep)`, `rstrip(c)`,
    `strip(c)`, `upper()`, `replace(old, "")`, `in` and `join`. */
module PyText {

  /** `c.isspace()`: the ASCII whitespace characters, the information
      separators U+001C..U+001F and the Unicode space characters. */
  predicate IsSpace(c: char) {
    var n := c as int;
    n == 0x20 || 0x09 <= n <= 0x0D || 0x1C <= n <= 0x1F || n == 0x85 || n == 0xA0
    || n == 0x1680 || 0x2000 <= n <= 0x200A || n == 0x2028 || n == 0x2029
    || n == 0x202F || n == 0x205F || n == 0x3000
  }

  /** `s` holds no whitespace character. */
  predicate NoSpace(s: string) {
    forall i | 0 <= i < |s| :: !IsSpace(s[i])
  }

  /** `s` does not contain the character `c`. */
  predicate Lacks(s: string, c: char) {
    forall i | 0 <= i < |s| :: s[i] != c
  }

  // ---------------------------------------------------------------------------
  // Scanning by index

  /** The first index at or after `i` that does not hold whitespace. */
  function SkipSpace(s: string, i: nat): (j: nat)
    requires i <= |s|
    ensures i <= j <= |s|
    ensures forall k | i <= k < j :: IsSpace(s[k])
    ensures j == |s| || !IsSpace(s[j])
    decreases |s| - i
  {
    if i < |s| && IsSpace(s[i]) then SkipSpace(s, i + 1) else i
  }

  /** The first index at or after `i` that holds whitespace. */
  function SkipWord(s: string, i: nat): (j: nat)
    requires i <= |s|
    ensures i <= j <= |s|
    ensures forall k | i <= k < j :: !IsSpace(s[k])
    ensures j == |s| || IsSpace(s[j])
    decreases |s| - i
  {
    if i < |s| && !IsSpace(s[i]) then SkipWord(s, i + 1) else i
  }

  /** The end of `s[..j]` once its trailing whitespace is dropped. */
  function TrimEnd(s: string, j: nat): (e: nat)
    requires j <= |s|
    ensures e <= j
    ensures forall k | e <= k < j :: IsSpace(s[k])
    ensures e == 0 || !IsSpace(s[e - 1])
  {
    if j > 0 && IsSpace(s[j - 1]) then TrimEnd(s, j - 1) else j
  }

  // ---------------------------------------------------------------------------
  // strip

  /** `s.lstrip()`: `s` without its leading whitespace. */
  function LStrip(s: string): (r: string)
    ensures r == [] || !IsSpace(r[0])
  {
    s[SkipSpace(s, 0)..]
  }

  /** `s.strip()`: `s` without its leading and trailing whitespace. */
  function Strip(s: string): (r: string)
    ensures |r| <= |s|
    ensures r == [] || (!IsSpace(r[0]) && !IsSpace(r[|r| - 1]))
  {
    var a := SkipSpace(s, 0);
    var e := TrimEnd(s, |s|);
    if e <= a then [] else s[a..e]
  }

  /** Stripping leaves a string without surrounding whitespace unchanged, so
      `strip()` is idempotent. */
  lemma StripFixed(s: string)
    requires s == [] || (!IsSpace(s[0]) && !IsSpace(s[|s| - 1]))
    ensures Strip(s) == s
  {
  }

  lemma StripIdempotent(s: string)
    ensures Strip(Strip(s)) == Strip(s)
  {
    StripFixed(Strip(s));
  }

  // ---------------------------------------------------------------------------
  // split() and split(None, maxsplit)

  /** The whitespace-separated fields of `s[i..]`, in order. */
  function FieldsFrom(s: string, i: nat): (fields: seq<string>)
    requires i <= |s|
    ensures forall k | 0 <= k < |fields| :: |fields[k]| > 0 && NoSpace(fields[k])
    ensures |fields| <= |s| - i
    decreases |s| - i
  {
    var a := SkipSpace(s, i);
    if a == |s| then []
    else
      var b := SkipWord(s, a);
      [s[a..b]] + FieldsFrom(s, b)
  }

  /** `s.split()`: the maximal runs of non-whitespace characters, in order. */
  function SplitWs(s: string): (fields: seq<string>)
    ensures forall k | 0 <= k < |fields| :: |fields[k]| > 0 && NoSpace(fields[k])
    ensures |fields| <= |s|
  {
    FieldsFrom(s, 0)
  }

  /** The fields of `s[i..]` when at most `maxsplit` splits are made: after
      `maxsplit` fields the rest, with its leading whitespace dropped and its
      trailing whitespace kept, is the last field. */
  function BoundedFieldsFrom(s: string, i: nat, maxsplit: nat): (fields: seq<string>)
    requires i <= |s|
    ensures |fields| <= maxsplit + 1
    ensures forall k | 0 <= k < |fields| :: |fields[k]| > 0
    decreases |s| - i
  {
    var a := SkipSpace(s, i);
    if a == |s| then []
    else if maxsplit == 0 then [s[a..]]
    else
      var b := SkipWord(s, a);
      [s[a..b]] + BoundedFieldsFrom(s, b, maxsplit - 1)
  }

  /** `s.split(None, maxsplit)`. */
  function SplitMax(s: string, maxsplit: nat): (fields: seq<string>)
    ensures |fields| <= maxsplit + 1
    ensures forall k | 0 <= k < |fields| :: |fields[k]| > 0
  {
    BoundedFieldsFrom(s, 0, maxsplit)
  }

  lemma {:induction false} BoundedFieldsAgree(s: string, i: nat, maxsplit: nat)
    requires i <= |s|
    ensures |BoundedFieldsFrom(s, i, maxsplit)| <= |FieldsFrom(s, i)|
    ensures forall k | 0 <= k < |BoundedFieldsFrom(s, i, maxsplit)| && k < maxsplit ::
              BoundedFieldsFrom(s, i, maxsplit)[k] == FieldsFrom(s, i)[k]
    ensures |FieldsFrom(s, i)| <= maxsplit ==> BoundedFieldsFrom(s, i, maxsplit) == FieldsFrom(s, i)
    ensures |FieldsFrom(s, i)| > maxsplit ==> |BoundedFieldsFrom(s, i, maxsplit)| == maxsplit + 1
    decreases |s| - i
  {
    var a := SkipSpace(s, i);
    if a < |s| && maxsplit > 0 {
      var b := SkipWord(s, a);
      BoundedFieldsAgree(s, b, maxsplit - 1);
      assert FieldsFrom(s, i) == [s[a..b]] + FieldsFrom(s, b);
      assert BoundedFieldsFrom(s, i, maxsplit) == [s[a..b]] + BoundedFieldsFrom(s, b, maxsplit - 1);
    } else if a < |s| {
      assert BoundedFieldsFrom(s, i, maxsplit) == [s[a..]];
      assert |FieldsFrom(s, i)| >= 1;
    } else {
      assert BoundedFieldsFrom(s, i, maxsplit) == [] == FieldsFrom(s, i);
    }
  }

  /** Bounded splitting agrees with `split()` on every field before the
      remainder, and when `split()` has at most `maxsplit` fields the two are
      equal. */
  lemma SplitMaxAgrees(s: string, maxsplit: nat)
    ensures |SplitMax(s, maxsplit)| <= |SplitWs(s)|
    ensures forall k | 0 <= k < |SplitMax(s, maxsplit)| && k < maxsplit ::
              SplitMax(s, maxsplit)[k] == SplitWs(s)[k]
    ensures |SplitWs(s)| <= maxsplit ==> SplitMax(s, maxsplit) == SplitWs(s)
    ensures |SplitWs(s)| > maxsplit ==> |SplitMax(s, maxsplit)| == maxsplit + 1
  {
    BoundedFieldsAgree(s, 0, maxsplit);
  }

  // ---------------------------------------------------------------------------
  // join and split(sep)

  /** `sep.join(parts)`. */
  function Join(parts: seq<string>, sep: string): string {
    if |parts| == 0 then ""
    else if |parts| == 1 then parts[0]
    else parts[0] + sep + Join(parts[1..], sep)
  }

  /** `s.split(sep)` for a one-character separator: the pieces between
      separators, empty pieces included; `"".split(sep)` is `[""]`. */
  function SplitOn(s: string, sep: char): (parts: seq<string>)
    ensures |parts| >= 1
    ensures forall k | 0 <= k < |parts| :: Lacks(parts[k], sep)
  {
    if |s| == 0 then [""]
    else
      var rest := SplitOn(s[1..], sep);
      if s[0] == sep then [""] + rest else [[s[0]] + rest[0]] + rest[1..]
  }

  /** Joining the pieces with the separator gives back the original string. */
  lemma {:induction false} SplitOnJoin(s: string, sep: char)
    ensures Join(SplitOn(s, sep), [sep]) == s
  {
    if |s| > 0 {
      var rest := SplitOn(s[1..], sep);
      SplitOnJoin(s[1..], sep);
      if s[0] == sep {
        assert SplitOn(s, sep) == [""] + rest;
        assert ([""] + rest)[1..] == rest;
      } else {
        var parts := [[s[0]] + rest[0]] + rest[1..];
        assert SplitOn(s, sep) == parts;
        if |rest| == 1 {
          assert Join(parts, [sep]) == [s[0]] + rest[0];
        } else {
          assert parts[1..] == rest[1..];
          assert Join(rest, [sep]) == rest[0] + [sep] + Join(rest[1..], [sep]);
        }
      }
    }
  }

  /** A string without the separator is a single piece. */
  lemma {:induction false} SplitOnLacking(s: string, sep: char)
    requires Lacks(s, sep)
    ensures SplitOn(s, sep) == [s]
  {
    if |s| > 0 {
      SplitOnLacking(s[1..], sep);
      assert [s[0]] + s[1..] == s;
    }
  }

  /** The text before the first separator is the first piece. */
  lemma {:induction false} SplitOnFirst(head: string, sep: char, tail: string)
    requires Lacks(head, sep)
    ensures SplitOn(head + [sep] + tail, sep) == [head] + SplitOn(tail, sep)
  {
    if |head| == 0 {
      assert head + [sep] + tail == [sep] + tail;
      assert ([sep] + tail)[1..] == tail;
    } else {
      assert (head + [sep] + tail)[1..] == head[1..] + [sep] + tail;
      SplitOnFirst(head[1..], sep, tail);
      var rest := SplitOn(head[1..] + [sep] + tail, sep);
      assert rest[1..] == SplitOn(tail, sep);
      assert [head[0]] + rest[0] == head;
    }
  }

  // ---------------------------------------------------------------------------
  // Splitting on whitespace inverts joining with one space

  lemma {:induction false} SkipWordOver(s: string, i: nat, f: string)
    requires i + |f| <= |s| && s[i..i + |f|] == f && NoSpace(f)
    requires i + |f| == |s| || IsSpace(s[i + |f|])
    ensures SkipWord(s, i) == i + |f|
    decreases |f|
  {
    if |f| > 0 {
      assert s[i] == f[0];
      assert s[i + 1..i + 1 + |f[1..]|] == f[1..];
      SkipWordOver(s, i + 1, f[1..]);
    }
  }

  /** A word at `i` followed by whitespace or the end is the first field. */
  lemma FieldAt(s: string, i: nat, f: string)
    requires i + |f| <= |s| && s[i..i + |f|] == f && |f| > 0 && NoSpace(f)
    requires i + |f| == |s| || IsSpace(s[i + |f|])
    ensures FieldsFrom(s, i) == [f] + FieldsFrom(s, i + |f|)
  {
    assert s[i] == f[0];
    assert SkipSpace(s, i) == i;
    SkipWordOver(s, i, f);
  }

  /** Whitespace before the fields does not change them. */
  lemma FieldsAfterSpace(s: string, i: nat)
    requires i < |s| && IsSpace(s[i])
    ensures FieldsFrom(s, i) == FieldsFrom(s, i + 1)
  {
    assert SkipSpace(s, i) == SkipSpace(s, i + 1);
  }

  lemma SuffixSplit(s: string, i: nat, a: string, b: string)
    requires i <= |s| && s[i..] == a + b
    ensures i + |a| <= |s| && s[i..i + |a|] == a && s[i + |a|..] == b
  {
    assert s[i..][..|a|] == a;
    assert s[i..][|a|..] == b;
  }

  /** The fields of `s[i..]` when that suffix is `fields` joined by single spaces. */
  lemma {:induction false} FieldsOfJoin(s: string, i: nat, fields: seq<string>)
    requires i <= |s| && s[i..] == Join(fields, " ")
    requires forall k | 0 <= k < |fields| :: |fields[k]| > 0 && NoSpace(fields[k])
    ensures FieldsFrom(s, i) == fields
    decreases |fields|
  {
    if |fields| <= 1 {
      FieldsOfJoinShort(s, i, fields);
    } else {
      var j := FieldsOfJoinStep(s, i, fields);
      WordsTail(fields);
      FieldsOfJoin(s, j, fields[1..]);
      FieldsCons(s, i, j, fields);
    }
  }

  lemma FieldsCons(s: string, i: nat, j: nat, fields: seq<string>)
    requires i <= |s| && j <= |s| && |fields| > 0
    requires FieldsFrom(s, i) == [fields[0]] + FieldsFrom(s, j)
    requires FieldsFrom(s, j) == fields[1..]
    ensures FieldsFrom(s, i) == fields
  {
    assert fields == [fields[0]] + fields[1..];
  }

  lemma FieldsOfJoinShort(s: string, i: nat, fields: seq<string>)
    requires i <= |s| && s[i..] == Join(fields, " ") && |fields| <= 1
    requires forall k | 0 <= k < |fields| :: |fields[k]| > 0 && NoSpace(fields[k])
    ensures FieldsFrom(s, i) == fields
  {
    if |fields| == 0 {
      assert i == |s|;
    } else {
      FieldsOfJoinLast(s, i, fields[0]);
    }
  }

  lemma FieldsOfJoinLast(s: string, i: nat, f: string)
    requires i <= |s| && s[i..] == f && |f| > 0 && NoSpace(f)
    ensures FieldsFrom(s, i) == [f]
  {
    SuffixSplit(s, i, f, "");
    FieldAt(s, i, f);
    assert FieldsFrom(s, i + |f|) == [];
  }

  /** The first field of a join, and where the join of the others starts. */
  lemma FieldsOfJoinStep(s: string, i: nat, fields: seq<string>) returns (j: nat)
    requires i <= |s| && s[i..] == Join(fields, " ") && |fields| > 1
    requires |fields[0]| > 0 && NoSpace(fields[0])
    ensures j <= |s| && s[j..] == Join(fields[1..], " ")
    ensures FieldsFrom(s, i) == [fields[0]] + FieldsFrom(s, j)
  {
    var f := fields[0];
    var rest := Join(fields[1..], " ");
    assert Join(fields, " ") == f + " " + rest;
    SuffixSplit(s, i, f, " " + rest);
    var b := i + |f|;
    SuffixSplit(s, b, " ", rest);
    assert s[b..b + 1] == " ";
    assert s[b] == ' ';
    FieldAt(s, i, f);
    FieldsAfterSpace(s, b);
    j := b + 1;
  }

  lemma WordsTail(fields: seq<string>)
    requires |fields| > 0
    requires forall k | 0 <= k < |fields| :: |fields[k]| > 0 && NoSpace(fields[k])
    ensures forall k | 0 <= k < |fields[1..]| :: |fields[1..][k]| > 0 && NoSpace(fields[1..][k])
  {
    var tail := fields[1..];
    forall k | 0 <= k < |tail|
      ensures |tail[k]| > 0 && NoSpace(tail[k])
    {
      assert tail[k] == fields[k + 1];
    }
  }


  /** `" ".join(fields).split() == fields` when every field is a non-empty
      run without whitespace. */
  lemma SplitWsJoin(fields: seq<string>)
    requires forall k | 0 <= k < |fields| :: |fields[k]| > 0 && NoSpace(fields[k])
    ensures SplitWs(Join(fields, " ")) == fields
  {
    var s := Join(fields, " ");
    assert s[0..] == s;
    FieldsOfJoin(s, 0, fields);
  }

  // ---------------------------------------------------------------------------
  // strip(c), rstrip(c), upper(), replace(old, ""), in

  /** `s.rstrip(c)`: `s` without its trailing copies of `c`. */
  function RStripChar(s: string, c: char): (r: string)
    ensures |r| <= |s| && r == s[..|r|]
    ensures r == [] || r[|r| - 1] != c
    ensures forall i | |r| <= i < |s| :: s[i] == c
  {
    if |s| > 0 && s[|s| - 1] == c then RStripChar(s[..|s| - 1], c) else s
  }

  /** `s.lstrip(c)`: `s` without its leading copies of `c`. */
  function LStripChar(s: string, c: char): (r: string)
    ensures |r| <= |s| && r == s[|s| - |r|..]
    ensures r == [] || r[0] != c
    ensures forall i | 0 <= i < |s| - |r| :: s[i] == c
  {
    if |s| > 0 && s[0] == c then LStripChar(s[1..], c) else s
  }

  /** `s.strip(c)`: `s` without the copies of `c` at either end. */
  function StripChar(s: string, c: char): (r: string)
    ensures r == [] || (r[0] != c && r[|r| - 1] != c)
    ensures Lacks(s, c) ==> r == s
  {
    RStripChar(LStripChar(s, c), c)
  }

  /** `c.upper()` on ASCII letters; every other character is kept. */
  function UpperChar(c: char): (u: char)
    ensures 'a' <= c <= 'z' ==> u as int == c as int - 32
    ensures !('a' <= c <= 'z') ==> u == c
  {
    if 'a' <= c <= 'z' then (c as int - 32) as char else c
  }

  /** `s.upper()`, one character at a time. */
  function Upper(s: string): (r: string)
    ensures |r| == |s|
    ensures forall i | 0 <= i < |s| :: r[i] == UpperChar(s[i])
  {
    if |s| == 0 then [] else [UpperChar(s[0])] + Upper(s[1..])
  }

  /** Text without lower-case ASCII letters is its own upper case. */
  lemma UpperFixed(s: string)
    requires forall i | 0 <= i < |s| :: !('a' <= s[i] <= 'z')
    ensures Upper(s) == s
  {
  }

  /** `s` starts with `p`. */
  predicate StartsWith(s: string, p: string) {
    |p| <= |s| && s[..|p|] == p
  }

  /** `sub in s`. */
  predicate Contains(s: string, sub: string)
    decreases |s|
  {
    StartsWith(s, sub) || (|s| > 0 && Contains(s[1..], sub))
  }

  /** `s.replace(pat, "")`: occurrences are removed left to right without
      overlapping, as Python scans them. */
  function RemoveAll(s: string, pat: string): (r: string)
    requires |pat| > 0
    ensures |r| <= |s|
    ensures !Contains(s, pat) ==> r == s
    decreases |s|
  {
    if |s| < |pat| then s
    else if s[..|pat|] == pat then RemoveAll(s[|pat|..], pat)
    else [s[0]] + RemoveAll(s[1..], pat)
  }

  /** A string lacking the first character of `pat` cannot contain `pat`. */
  lemma {:induction false} LacksFirstNotContains(s: string, pat: string)
    requires |pat| > 0 && Lacks(s, pat[0])
    ensures !Contains(s, pat)
    decreases |s|
  {
    if |s| > 0 {
      assert s[0] != pat[0];
      LacksFirstNotContains(s[1..], pat);
    } else {
      assert !StartsWith(s, pat);
    }
  }

  /** A string ending in `pat` contains it. */
  lemma {:induction false} ContainsSuffix(s: string, pat: string)
    ensures Contains(s + pat, pat)
    decreases |s|
  {
    if |s| == 0 {
      assert s + pat == pat;
    } else {
      assert (s + pat)[1..] == s[1..] + pat;
      ContainsSuffix(s[1..], pat);
    }
  }

  /** Removing a trailing `pat` from a string that has no other copy of its
      first character leaves the rest. */
  lemma {:induction false} RemoveAllSuffix(s: string, pat: string)
    requires |pat| > 0 && Lacks(s, pat[0])
    ensures RemoveAll(s + pat, pat) == s
    decreases |s|
  {
    if |s| == 0 {
      assert s + pat == pat;
      assert pat[|pat|..] == [];
    } else {
      assert (s + pat)[..|pat|] != pat by {
        assert (s + pat)[0] == s[0] != pat[0];
      }
      assert (s + pat)[1..] == s[1..] + pat;
      RemoveAllSuffix(s[1..], pat);
    }
  }
}

=== FILE: transport.dfy ===
/** The command transport: `SSHResult`, the result shapes `execute` returns
    on its success and exception branches, and `execute_multiple` as a fold
    over an abstract `execute`.

    Opening connections and spawning processes are not modelled: a runner
    function `(W, command) -> (W, ExecOutcome)` stands for the world that
    answers each command. It receives the world left by the previous command,
    so that commands are answered one after another, in list order. */
module Transport {
  import opened Outcomes
  import opened PyNumbers

  /** The outcome of one command as the transport reports it. */
  datatype SSHResult = SSHResult(
    success: bool,
    stdout: string,
    stderr: string,
    exitCode: int,
    error: Option<string>)

  /** The two transports: a remote SSH session, or a local shell. */
  datatype Variant = Remote | Local

  /** What happens when the transport runs a command: the process exits
      (with an exit status and captured output, each possibly missing), or
      one of the exceptions `execute` catches is raised. */
  datatype ExecOutcome =
    | Exited(status: Option<int>, out: Option<string>, err: Option<string>)
    | TimedOut
    | SshError(message: string)
    | OtherError(message: string)

  /** `f"{prefix}{seconds}s)"` for the timeout messages. */
  function TimeoutMessage(prefix: string, seconds: int): string {
    prefix + IntText(seconds) + "s)"
  }

  /** The `SSHResult` that `execute` returns for an outcome: the remote
      variant distinguishes SSH errors from other exceptions; the local
      variant reports every non-timeout exception as an execution error. */
  function ResultOf(variant: Variant, timeout: int, outcome: ExecOutcome): (r: SSHResult)
    ensures r.success <==> outcome.Exited? && outcome.status == Some(0)
    ensures outcome.Exited? ==> r.error.None? && r.exitCode == outcome.status.GetOr(0)
    ensures outcome.Exited? ==> r.stdout == outcome.out.GetOr("") && r.stderr == outcome.err.GetOr("")
    ensures !outcome.Exited? ==>
              && !r.success && r.exitCode == -1 && r.stdout == "" && r.stderr == ""
              && r.error.Some? && |r.error.value| > 0
  {
    match outcome
    case Exited(status, out, err) =>
      SSHResult(status == Some(0), out.GetOr(""), err.GetOr(""), status.GetOr(0), None)
    case TimedOut =>
      var message := if variant == Remote then TimeoutMessage("Connection timeout (", timeout)
                     else TimeoutMessage("Command timeout (", timeout);
      SSHResult(false, "", "", -1, Some(message))
    case SshError(m) =>
      var message := if variant == Remote then "SSH error: " + m else "Execution error: " + m;
      SSHResult(false, "", "", -1, Some(message))
    case OtherError(m) =>
      var message := if variant == Remote then "Unexpected error: " + m else "Execution error: " + m;
      SSHResult(false, "", "", -1, Some(message))
  }

  /** A missing exit status still yields a failed result, but with exit code 0. */
  lemma MissingExitStatus(variant: Variant, timeout: int, out: Option<string>, err: Option<string>)
    ensures var r := ResultOf(variant, timeout, Exited(None, out, err));
            !r.success && r.exitCode == 0
  {
  }

  /** `execute`: run one command against the world and report its result. */
  function Execute<W>(variant: Variant, timeout: int, run: (W, string) -> (W, ExecOutcome),
                      world: W, command: string): (W, SSHResult)
  {
    var (next, outcome) := run(world, command);
    (next, ResultOf(variant, timeout, outcome))
  }

  /** The results of running `commands` one after another from `world`, in
      list order, each command seeing the world the previous one left, and the
      final world. Every command runs, whatever the earlier results were. */
  function RunAll<W>(variant: Variant, timeout: int, run: (W, string) -> (W, ExecOutcome),
                     world: W, commands: seq<string>): (res: (W, seq<SSHResult>))
    ensures |res.1| == |commands|
  {
    if |commands| == 0 then (world, [])
    else
      var (w, results) := RunAll(variant, timeout, run, world, commands[..|commands| - 1]);
      var (w', r) := Execute(variant, timeout, run, w, commands[|commands| - 1]);
      (w', results + [r])
  }

  /** Running a longer list first runs its prefix: the earlier results do not
      depend on the commands that come later. */
  lemma {:induction false} RunAllPrefix<W>(variant: Variant, timeout: int, run: (W, string) -> (W, ExecOutcome),
                                         world: W, commands: seq<string>, n: nat)
    requires n <= |commands|
    ensures RunAll(variant, timeout, run, world, commands).1[..n]
         == RunAll(variant, timeout, run, world, commands[..n]).1
    decreases |commands|
  {
    if n < |commands| {
      var init := commands[..|commands| - 1];
      RunAllPrefix(variant, timeout, run, world, init, n);
      assert init[..n] == commands[..n];
    } else {
      assert commands[..n] == commands;
    }
  }

  /** One more command extends the trace by that command's result. */
  lemma RunAllStep<W>(variant: Variant, timeout: int, run: (W, string) -> (W, ExecOutcome),
                      world: W, commands: seq<string>, i: nat)
    requires i < |commands|
    ensures var before := RunAll(variant, timeout, run, world, commands[..i]);
            var step := Execute(variant, timeout, run, before.0, commands[i]);
            RunAll(variant, timeout, run, world, commands[..i + 1]) == (step.0, before.1 + [step.1])
  {
    assert commands[..i + 1][..i] == commands[..i];
  }

  /** The `i`th result is what `commands[i]` gives when it runs in the world
      the commands before it left: every result is produced in turn, from the
      state after the earlier runs, whatever the later commands are. */
  lemma RunAllAt<W>(variant: Variant, timeout: int, run: (W, string) -> (W, ExecOutcome),
                    world: W, commands: seq<string>, i: nat)
    requires i < |commands|
    ensures RunAll(variant, timeout, run, world, commands).1[i]
         == Execute(variant, timeout, run, RunAll(variant, timeout, run, world, commands[..i]).0, commands[i]).1
  {
    RunAllPrefix(variant, timeout, run, world, commands, i + 1);
    RunAllStep(variant, timeout, run, world, commands, i);
    assert RunAll(variant, timeout, run, world, commands).1[i]
        == RunAll(variant, timeout, run, world, commands).1[..i + 1][i];
  }

  /** `i` is the last position at which `commands[i]` occurs. */
  predicate LastOccurrence(commands: seq<string>, i: int) {
    0 <= i < |commands| && forall j | i < j < |commands| :: commands[j] != commands[i]
  }

  /** A last occurrence before the final command of a prefix is one in the
      shorter prefix too, and names a different command than the final one. */
  lemma LastOccurrenceStep(commands: seq<string>, i: nat, k: nat)
    requires i < |commands| && k < i
    requires LastOccurrence(commands[..i + 1], k)
    ensures LastOccurrence(commands[..i], k) && commands[k] != commands[i]
  {
    assert commands[..i + 1][i] == commands[i];
  }

  /** Recording the result of `commands[i]` keeps every last occurrence
      mapped to its own result. */
  lemma ResultsStep(commands: seq<string>, i: nat, results: map<string, SSHResult>,
                    before: seq<SSHResult>, r: SSHResult)
    requires i < |commands| && |before| == i
    requires forall c :: c in results <==> c in commands[..i]
    requires forall k | LastOccurrence(commands[..i], k) :: results[commands[k]] == before[k]
    ensures forall c :: c in commands[..i + 1] <==> c == commands[i] || c in results
    ensures forall k | LastOccurrence(commands[..i + 1], k) ::
              results[commands[i] := r][commands[k]] == (before + [r])[k]
  {
    assert commands[..i + 1] == commands[..i] + [commands[i]];
    forall k | LastOccurrence(commands[..i + 1], k)
      ensures results[commands[i] := r][commands[k]] == (before + [r])[k]
    {
      if k < i {
        LastOccurrenceStep(commands, i, k);
      }
    }
  }

  /** `execute_multiple`: run the commands in order and map each command to
      its result; a command listed twice keeps the result of its last run. */
  method ExecuteMultiple<W>(variant: Variant, timeout: int, run: (W, string) -> (W, ExecOutcome),
                            world: W, commands: seq<string>)
    returns (results: map<string, SSHResult>, final: W)
    ensures forall c :: c in results <==> c in commands
    ensures forall i | LastOccurrence(commands, i) ::
              results[commands[i]] == RunAll(variant, timeout, run, world, commands).1[i]
    ensures final == RunAll(variant, timeout, run, world, commands).0
  {
    results := map[];
    final := world;
    var i := 0;
    while i < |commands|
      invariant 0 <= i <= |commands|
      invariant final == RunAll(variant, timeout, run, world, commands[..i]).0
      invariant forall c :: c in results <==> c in commands[..i]
      invariant forall k | LastOccurrence(commands[..i], k) ::
                  results[commands[k]] == RunAll(variant, timeout, run, world, commands[..i]).1[k]
    {
      ghost var before := RunAll(variant, timeout, run, world, commands[..i]).1;
      var (next, r) := Execute(variant, timeout, run, final, commands[i]);
      RunAllStep(variant, timeout, run, world, commands, i);
      ResultsStep(commands, i, results, before, r);
      results := results[commands[i] := r];
      final := next;
      i := i + 1;
    }
    assert commands[..i] == commands;
  }
}
